=== FILE: README.md ===
# Bang search, modelled in Dafny

A model of the pure logic of the bang search redirector. The user types into one search box. Text starting with a registered `!trigger` opens that site's search in a new tab. Any other text replaces the page with a Google search of the whole input. The model covers these parts:

- **The bang registry** (`Catalog`, `Registry`, `CatalogFacts`):
  - the compact shipped records and their renaming into registry entries;
  - the 5-entry fallback set and the 32-entry shipped set;
  - lookup by trigger, ignoring case;
  - the `!`-prefixed filter and the popular subset;
  - the sequence of registry values that loading installs.
- **Reading the search box** (`Query`):
  - the submit pattern `^!(\w+)\s*(.*)`;
  - the display pattern `^!(\w+)(\s+.*)?$`, which decides whether a bang chip is shown;
  - the text put back together when the chip's input is edited;
  - the text sent for suggestions.
- **Submitting** (`Search`):
  - the history update;
  - the bang resolution and the `{{{s}}}` substitution;
  - the navigation, returned as an action value;
  - the relevant-bang chips while typing;
  - the chip-or-plain input view.
- **History** (`History`): most recent first, no repeats, at most 50, and clearing.
- **Suggestions** (`Suggestions`):
  - the filter and the cap of eight;
  - the API → Wikipedia → Datamuse → synthetic chain, with each network answer as a parameter.
- **Quick chips** (`Chips`): the 12/50 window, the show more/less toggle, and the chip payload.
- **Scenarios** (`Scenarios`): whole submissions against the shipped and fallback registries.

**Shared support modules:**
- `Text`:
  - the regex classes `\w` and `\s`, which is also the set `trim` removes;
  - ASCII lower-casing;
  - `trim`, `includes` and `indexOf`;
  - the first-occurrence string `replace`.
- `Uri`: `encodeURIComponent`, with a `decodeURIComponent`-style decoder as its inverse. Encoding is UTF-8 with uppercase `%HH` (section 2.1 of RFC 3986) and leaves the RFC 2396 unreserved set as it is.
- `Seqs`: order-preserving `filter`, `slice(0, n)` and subsequences.
- `Optional`.

**Behaviour of the code worth knowing, all modelled as written:**
- **Leading white space of the term.** The term loses its leading white space, because `\s*` in the submit pattern consumes it (`components/search-interface.tsx:91`). Trailing white space stays.
- **The synthetic suggestions.** They are the first five templates: tutorial, guide, examples, documentation, vs. `slice(0, 5)` drops `how to …` and the later templates (`hooks/use-search-suggestions.ts:106`).
- **Line terminators.** `.` in the submit pattern stops at the first line terminator, so the term ends there. For example, `!g a\nb` has the term `a` (`Query.TermStopsAtLineBreak`). Input is not assumed to be free of line terminators.
- **Suggestion text for a bang.** The `else if` in the suggestion target choice can never fire. A bang followed by nothing sends no request (`Query.SuggestionQueryIsStrippedText`).
- **Shipped URL templates.** Each shipped record takes its template from `Catalog.EmbeddedTemplate`, which lists it as the pair of texts before and after `{{{s}}}`. `Catalog.Url` joins the pair around the placeholder, giving the literal of `hooks/use-bangs.ts`. The five fallback templates are written with `Url(before, after)` too.

## Model

| member | source | states |
|---|---|---|
| Catalog.ToBangData | hooks/use-bangs.ts:47-54 | each field of a registry entry is the matching compact field (t→trigger, s→name, u→url, c→category, sc→subcategory, d→domain) |
| Catalog.RenamingRoundTrip | types/bang.ts:1-18 | the renaming forgets only the rank: a record comes back from its entry and its rank, and an entry from its record |
| Catalog.Transform | hooks/use-bangs.ts:46-55 | `transformBangs` keeps the length and maps each record in place |
| Catalog.TransformRoundTrip | hooks/use-bangs.ts:46-55 | the records come back from the entries plus the ranks, and vice versa |
| Catalog.TransformAppend | hooks/use-bangs.ts:47 | the renaming maps a concatenation piecewise |
| Catalog.DefaultBangs | hooks/use-bangs.ts:57-100 | the fallback set has five entries |
| Catalog.EmbeddedBangs | hooks/use-bangs.ts:143-434 | the shipped set has 32 records |
| CatalogFacts.EmbeddedTriggersDistinct | hooks/use-bangs.ts:143-434 | no two shipped records share a trigger |
| CatalogFacts.EmbeddedTriggersAreWords | hooks/use-bangs.ts:143-434 | every shipped trigger is a non-empty run of `\w` characters, so every shipped bang can be typed as `!trigger` |
| CatalogFacts.EmbeddedPopular | hooks/use-bangs.ts:123-141 | on the shipped set the popular subset is its last fourteen entries, and their triggers are the fourteen popular names in list order, so every popular name occurs |
| CatalogFacts.SelectSuffix | hooks/use-bangs.ts:140 | a whitelist filter over a registry whose first `n` entries fail and whose rest pass is the rest |
| CatalogFacts.EmbeddedLookupGoogle | hooks/use-bangs.ts:119-121 | on the shipped set both `g` and `G` find the Google entry |
| CatalogFacts.EmbeddedLookupUnknown | hooks/use-bangs.ts:119-121 | on the shipped set `zzznotreal` finds nothing |
| CatalogFacts.DefaultsArePopular | hooks/use-bangs.ts:57-141 | every fallback entry is popular, and its trigger is the matching popular name (g, w, yt, gh, so) |
| Registry.FindTrigger | hooks/use-bangs.ts:120 | the position found answers to the trigger up to case and no earlier one does; nothing is found exactly when no entry answers |
| Registry.GetBangByTrigger | hooks/use-bangs.ts:119-121 | an entry is returned iff some entry's lower-cased trigger equals the lower-cased argument, and it is the first such entry |
| Registry.LookupIgnoresCase | hooks/use-bangs.ts:120 | triggers that lower-case alike find the same entry |
| Registry.LookupFindsFirst | hooks/use-bangs.ts:120 | an answering entry in front wins over any later one |
| Registry.FilterByEmptyTerm | hooks/use-bangs.ts:111-114 | the empty term is contained in every field, so it keeps every entry |
| Registry.SearchBangsSpec | hooks/use-bangs.ts:108-116 | a capped search keeps registry order, holds only entries whose trigger, name, category or subcategory contains the term, respects the cap, and holds every match when under the cap; exactly, it is the first min(cap, m) of the m matching entries in registry order |
| Registry.SearchBangs | hooks/use-bangs.ts:108-116 | at most `limit` entries, each one from the registry and matching the term |
| Registry.GetFilteredBangs | hooks/use-bangs.ts:102-117 | nothing without a leading `!`; otherwise the first ten matches of the lower-cased text after `!`; for `!` alone the first ten entries, in agreement with the general rule |
| Registry.GetPopularBangs | hooks/use-bangs.ts:123-141 | an entry is kept iff its trigger, with its case, is one of the fourteen names; the result keeps registry order |
| Registry.PopularKeepsRegistryOrder | hooks/use-bangs.ts:140 | a registry listing `so` before `g` yields them in that order, not in the list's order |
| Registry.PopularIsCaseSensitive | hooks/use-bangs.ts:140 | an entry with trigger `G` is not popular |
| Registry.LoadBangs | hooks/use-bangs.ts:14-44 | loading starts from the empty registry. A readable cache is installed first, then the shipped set unless reading throws. A throw while reading or while writing the cache ends with the fallback set. Exactly: unless reading throws, the shipped set comes right after the empty registry, or right after the cached set when the cache is readable, and a throwing write adds the fallback set as one final state; the number of states is fixed, so nothing else is installed |
| Registry.LoadedIgnoresCache | hooks/use-bangs.ts:14-44 | the settled registry does not depend on the cache. It is the shipped set when nothing throws, and the fallback set otherwise |
| Registry.Loaded | hooks/use-bangs.ts:14-44 | the registry a load settles on is always the fallback set or the shipped set |
| Query.TriggerEnd | components/search-interface.tsx:91 | `\w+` after `!` is maximal: it ends at the text's end or before a non-word character |
| Query.ParseBang | components/search-interface.tsx:91-93 | there is a match iff the text is `!` followed by a word character; the trigger is a non-empty word, and the term is a single line |
| Query.ParseBangSound | components/search-interface.tsx:91-93 | every match cuts the text into `!`, the greedy trigger, blank space, a single-line term, and a tail from a line terminator on |
| Query.ParseBangUnique | components/search-interface.tsx:91-93 | any cut of that shape is the one found: the pattern parses a text in at most one way |
| Query.MatchInput | components/search-interface.tsx:142 | a match needs `!` and a word character; its trigger is the one the submit pattern finds, and a present rest starts with white space |
| Query.MatchInputSound | components/search-interface.tsx:142 | the display pattern matches only a trigger to the end, or a trigger, then white space, then one line to the end |
| Query.MatchInputComplete | components/search-interface.tsx:142 | every text of that shape matches, with the groups the shape names |
| Query.DisplayAgreesWithSubmit | components/search-interface.tsx:142-160 | when the display pattern matches, the submit pattern finds the same trigger, and its term is the text the chip's input shows |
| Query.SubmitAcceptsMoreThanDisplay | components/search-interface.tsx:91-142 | `!g-x` shows no chip but submits as bang `g` with term `-x` |
| Query.TermStopsAtLineBreak | components/search-interface.tsx:91 | `!g a\nb` submits the term `a` |
| Query.RecomposeRoundTrip | components/search-interface.tsx:160-163 | `!trigger value`, built when the chip's input is edited, matches both patterns with that trigger; the input then shows the value without its leading white space |
| Query.InputValue | components/search-interface.tsx:160 | no rest shows nothing; otherwise the input shows the rest with its leading white space removed, and nothing more; it never starts with white space |
| Query.DisplayStable | components/search-interface.tsx:142-163 | re-composing what a chip shows gives a text with the same chip and the same shown value |
| Query.StripAgreesWithSubmit | components/search-interface.tsx:32 | for a single-line bang text, removing `!word` and white space leaves the submit term |
| Query.StripBangPrefix | components/search-interface.tsx:32 | text without a bang is unchanged; otherwise the result is the end of the text after `!word` and a blank run, and it does not start with white space |
| Query.SuggestionQuery | components/search-interface.tsx:28-41 | a target is sent only for non-blank text, and it is never empty |
| Query.SuggestionQueryIsStrippedText | components/search-interface.tsx:28-41 | the target is the trimmed text after any leading `!word` and white space, or nothing when that is empty |
| Search.FinalQuery | components/search-interface.tsx:85 | a non-empty argument is used; an absent or empty argument falls back to the search box text |
| Search.EmptyArgumentFallsBack | components/search-interface.tsx:85 | submitting with an empty argument behaves exactly like submitting with none |
| Search.HandleSearch | components/search-interface.tsx:84-108 | blank text, and only blank text, leaves the action empty. Other text is recorded in the history. A registered bang opens its URL in a new tab with the box cleared. Anything else replaces the page with a Google search of the whole text, and the text stays in the box |
| Search.SubmissionOutcome | components/search-interface.tsx:88-107 | a non-blank submission of a registered bang opens its URL with the term, records the text and clears the box; any other non-blank submission replaces the page with the Google search of the whole text, records it and keeps it in the box |
| Search.BangUrlShape | components/search-interface.tsx:96 | the URL is the template with the encoded term at its first `{{{s}}}`, and decoding that span gives the term back; a template without the marker is unchanged |
| Search.BangUrl | components/search-interface.tsx:96 | a template without `{{{s}}}` is returned unchanged; otherwise its first `{{{s}}}` is replaced by the encoded term and the rest stays |
| Search.BangUrlOfTemplate | components/search-interface.tsx:96 | a template `before{{{s}}}after` with no `{` before the marker opens `before`, the encoded term, then `after` |
| Search.EncodedTermIsLiteral | components/search-interface.tsx:96 | the encoded term holds no `$`, so the replacement is literal, and it decodes to the term |
| Search.DefaultSearchCarriesWholeText | components/search-interface.tsx:105-107 | the Google URL starts with the search prefix and what follows decodes to the whole submitted text |
| Search.BlankSubmissionIsIgnored | components/search-interface.tsx:86 | white space only changes nothing |
| Search.NotBangs | components/search-interface.tsx:91 | `!`, `!-x` and `a !g` carry no bang |
| Search.HandleBangClick | components/search-interface.tsx:77-82 | the box receives the clicked text followed by exactly one space |
| Search.ChipPayload | components/bang-chips.tsx:43 | a chip hands over `!` followed by its trigger |
| Search.ChipClickSelectsBang | components/search-interface.tsx:77-78 | after a chip click the box shows that bang's chip with an empty input, and submitting parses to that trigger with an empty term |
| Search.GetRelevantBangs | components/search-interface.tsx:120-134 | nothing for blank input; otherwise the first twelve entries matching the lower-cased input with one leading `!` removed and no trimming |
| Search.StripLeadingBang | components/search-interface.tsx:123 | one leading `!` is removed when present, and the text is left as it is otherwise |
| Search.RelevantForLoneBang | components/search-interface.tsx:120-134 | `!` alone offers the first twelve entries |
| Search.FilteredAreFirstRelevant | hooks/use-bangs.ts:102-117 | for `!`-prefixed text, the filter's ten are the first ten of the relevant twelve |
| Search.RelevantWithOrWithoutBang | components/search-interface.tsx:123 | typing a text with or without one leading `!` offers the same chips |
| Search.RenderSearchInput | components/search-interface.tsx:141-192 | a chip is shown iff the display pattern matches and its trigger is registered; the chip is that trigger's bang, and its input shows the text after the trigger without leading white space; otherwise the plain input shows the query |
| Search.ChipShownMeansBangOpens | components/search-interface.tsx:142-166 | whenever a chip is shown, pressing Enter opens that chip's bang with the text its input shows |
| Search.EditingKeepsChip | components/search-interface.tsx:160-163 | typing a single line into a chip's input keeps the chip, and the input shows the typed text without leading white space |
| History.AddToHistory | hooks/use-search-history.ts:22-31 | a blank query changes nothing; otherwise the query is in front and the list holds between 1 and 50 entries |
| History.AddKeepsOthersInOrder | hooks/use-search-history.ts:26-27 | behind the new front entry come only earlier entries, in their old order, none equal to the query; exactly: the result has min(50, 1 + n) entries, where n counts the earlier entries other than the query, and behind the front come the first of those entries in order |
| History.AddFresh | hooks/use-search-history.ts:26-27 | a query not yet in the history goes in front of the whole history, cut to fifty, so only the oldest entry can drop out |
| History.AddKeepsEntriesBelowCap | hooks/use-search-history.ts:26-27 | while under the cap, every earlier entry is kept |
| History.AddKeepsDistinct | hooks/use-search-history.ts:26-27 | a history without repeats stays without repeats |
| History.AddIdempotent | hooks/use-search-history.ts:26-27 | submitting the same query twice in a row records it once |
| History.ClearHistory | hooks/use-search-history.ts:33-36 | clearing leaves no entry |
| History.AddAfterClear | hooks/use-search-history.ts:22-36 | after clearing, the next search is the only entry |
| History.RestoreHistory | hooks/use-search-history.ts:11-20 | a readable saved list is taken as it is, with no cap or repeat check; a missing or unreadable value leaves the history empty |
| History.ReloadAfterAdd | hooks/use-search-history.ts:11-28 | a reload after a search restores a list headed by that search, within the cap, and without repeats when the history had none |
| History.ReloadAfterClear | hooks/use-search-history.ts:11-36 | clearing removes the saved list, so a reload starts from the empty history |
| History.AddAllDistinct | hooks/use-search-history.ts:26-27 | distinct non-blank searches from an empty history leave the fifty most recent, newest first |
| History.FiftyFirstEvictsOldest | hooks/use-search-history.ts:6-27 | the fifty-first distinct search evicts the first one |
| History.RepeatMovesToFront | hooks/use-search-history.ts:26-27 | searching `a`, `b`, `a` gives `[a, b]` |
| History.RepeatsAreExact | hooks/use-search-history.ts:26 | `A` and `a ` are entries of their own beside `a` |
| Suggestions.ProcessResultsSpec | hooks/use-search-suggestions.ts:24-26 | the processed list keeps source order, holds at most eight entries, never one equal to the query up to case, and loses no other entry while there is room; exactly, it is the first min(8, m) of the m entries that differ from the query up to case, in source order |
| Suggestions.ProcessResults | hooks/use-search-suggestions.ts:24-26 | at most eight entries, each from the list and none equal to the query up to case |
| Suggestions.ItemText | hooks/use-search-suggestions.ts:79 | an item's text is its non-empty word, else its non-empty suggestion, else empty |
| Suggestions.DatamuseWords | hooks/use-search-suggestions.ts:76-81 | a `null` entry makes the mapping throw; otherwise no word is empty |
| Suggestions.DatamuseWordsExact | hooks/use-search-suggestions.ts:79-80 | the words are exactly the non-empty entry texts, in entry order |
| Suggestions.DatamuseWordsComplete | hooks/use-search-suggestions.ts:79 | every entry with a non-empty word or suggestion contributes it |
| Suggestions.FallbackSuggestions | hooks/use-search-suggestions.ts:92-107 | nothing for a blank query, otherwise five suggestions |
| Suggestions.FallbackSuggestionsExact | hooks/use-search-suggestions.ts:95-106 | they are exactly the tutorial, guide, examples, documentation and vs templates; `how to …` is not among them |
| Suggestions.ClientChain | hooks/use-search-suggestions.ts:55-90 | Wikipedia is always consulted first; its usable list is used as it is; a throw gives the synthetic list; an unusable answer moves to Datamuse, whose usable words are used, else the synthetic list |
| Suggestions.FetchSuggestions | hooks/use-search-suggestions.ts:9-46 | a blank query consults nothing. A throw from the API gives nothing. A usable API list, even an empty one, is used. An unusable answer falls through to the client chain. Every list goes through the filter and cap |
| Suggestions.ClientSourcesOnlyAfterUnusableApi | hooks/use-search-suggestions.ts:19-42 | the client sources are consulted iff the query is non-blank and the API answer was unusable |
| Suggestions.FallbackSurvivesProcessing | hooks/use-search-suggestions.ts:35-37 | the filter keeps all five synthetic suggestions |
| Suggestions.AllSourcesFailing | hooks/use-search-suggestions.ts:32-39 | when every source fails, the five synthetic suggestions are shown after consulting API, Wikipedia and Datamuse |
| Suggestions.FetchedListBounded | hooks/use-search-suggestions.ts:9-46 | whatever the sources do, at most eight suggestions, none equal to the query up to case, with sources consulted in the order API, Wikipedia, Datamuse |
| Chips.DisplayBangs | components/bang-chips.tsx:15 | the chips shown are the first min(12, n) collapsed or min(50, n) expanded |
| Chips.PressToggle | components/bang-chips.tsx:21-23 | the button exists iff there are more than twelve bangs, and pressing it flips `showAll` and changes the chips shown |
| Chips.PressTwiceRestores | components/bang-chips.tsx:23 | pressing the toggle twice returns to the starting view |
| Chips.ToggleVisibleIffViewsDiffer | components/bang-chips.tsx:15-21 | the toggle is offered exactly when the two views differ |
| Chips.CollapsedIsPrefixOfExpanded | components/bang-chips.tsx:15 | the collapsed chips are the first of the expanded chips |
| Chips.ExpandedShowsAllUpToFifty | components/bang-chips.tsx:15 | with at most fifty bangs, the expanded view shows them all |
| Chips.ShippedChips | components/search-interface.tsx:240 | on the shipped registry, the fourteen popular chips show a toggle; collapsed gives the first twelve, expanded all fourteen |
| Chips.ChipClickThenSubmitOpensBang | components/bang-chips.tsx:43 | a chip click followed by Enter opens the trigger's bang with an empty term, clears the box, and records the text |
| Chips.ShippedChipsOpen | components/search-interface.tsx:240 | every chip of the shipped registry opens a bang |
| Scenarios.KnownBangSubmission | components/search-interface.tsx:91-101 | `!trigger term` with a registered trigger opens its bang with that term and clears the box |
| Scenarios.UnknownBangSubmission | components/search-interface.tsx:91-107 | `!trigger term` with an unregistered trigger searches Google for the whole text and keeps it in the box |
| Scenarios.ShippedGoogleBang | components/search-interface.tsx:84-101 | on the shipped registry `!g openai` opens `https://www.google.com/search?q=openai` |
| Scenarios.DefaultGoogleBang | hooks/use-bangs.ts:57-66 | on the fallback registry `!g openai` opens the same URL |
| Scenarios.UnknownBangSearchesGoogle | components/search-interface.tsx:105-107 | `!zzznotreal test` on the shipped registry replaces the page with a Google search of the whole text, kept in the box and recorded |
| Scenarios.PlainTextSearchesGoogle | components/search-interface.tsx:105-107 | `hello world` replaces the page with a Google search for it |
| Uri.Encode | components/search-interface.tsx:96 | the output is at least as long as the input, holds only unreserved characters and `%`, and is the input itself when that is all unreserved |
| Uri.DecodeEncode | components/search-interface.tsx:96 | decoding the encoded text gives the text back |
| Text.TrimEmptyIffBlank | components/search-interface.tsx:86 | `trim` gives the empty string exactly for text made only of `\s` characters |
| Text.TrimRemovesBlankEnds | components/search-interface.tsx:86 | `trim` removes a blank run at each end and nothing else |
| Text.ReplaceFirst | components/search-interface.tsx:96 | a missing pattern leaves the text unchanged; otherwise the first occurrence is replaced |
| Text.ReplaceAfterPlainPrefix | components/search-interface.tsx:96 | when the marker's first character does not occur before it, the replacement lands right after that prefix |
| Seqs.FilterMultiplicity | hooks/use-bangs.ts:140 | `filter` keeps every copy of a passing element and no copy of a failing one |
| CatalogFacts.UrlHoldsPlaceholderOnce | hooks/use-bangs.ts:143-434 | a template `before{{{s}}}after` with no `{` in either half holds `{{{s}}}` exactly once |
| Templates.TemplatePlain | hooks/use-bangs.ts:143-434 | neither half of any of the 32 shipped templates contains `{` |
| CatalogFacts.EmbeddedUrlsHoldPlaceholderOnce | hooks/use-bangs.ts:143-434 | every shipped URL template contains `{{{s}}}` exactly once, so the term lands in one place |
| CatalogFacts.DefaultUrlShipped | hooks/use-bangs.ts:57-100 | the fallback template at position k equals the template of shipped record 18 + k |
| CatalogFacts.DefaultUrlsHoldPlaceholderOnce | hooks/use-bangs.ts:57-100 | every fallback URL template contains `{{{s}}}` exactly once |

## Left out

- **Browser effects.** Storage, `window.open` and `location.href` are not modelled as effects. Storage is a parameter of the load and the history restore. Navigation is the returned `Action`. JSON encoding and decoding are part of the storage parameter.
- **React state and UI flags.** The loading flag, the dropdown flags (`showSuggestions`, `showHistory`), focus handling and the 300 ms debounce are timing and presentation, not logic. The debounced callback is modelled by its target choice, `Query.SuggestionQuery`.
- **Stale responses.** The order in which overlapping suggestion responses arrive is a concurrency concern, and the code has no guard against stale results to model.
- **Non-string list entries.** A non-string suggestion from the API or from Wikipedia would make `toLowerCase` throw. So would a Datamuse item whose truthy `word` or `suggestion` is not a string: it survives the mapping at hooks/use-search-suggestions.ts:79, `toLowerCase` throws on it at :36, and the outer catch leaves the list empty. Lists and Datamuse fields are modelled as strings.
- **Case conversion.** JavaScript's `toLowerCase` lower-cases every Unicode capital; `Text.Lower` lower-cases only `A`–`Z` and leaves every other character alone, because the full Unicode case mapping (with its length-changing special cases) is out of scope. On the shipped data this changes nothing: its non-ASCII names are caseless or already lower-case. On typed text with non-ASCII capitals the model differs:
  - `Registry.GetFilteredBangs` and `Search.GetRelevantBangs`: for `!VÅRD` the code searches for `vård` and finds "1177 Vårdguiden" (hooks/use-bangs.ts:105, :230); the model searches for `vÅrd` and finds nothing.
  - `Suggestions.ProcessResults`: for the query `CAFÉ` the code drops the suggestion `café` (hooks/use-search-suggestions.ts:24-26); the model keeps it.
  - `Registry.GetBangByTrigger` is unaffected on typed text, since a typed trigger is a run of `\w`, which is ASCII only.
- **Lone surrogates.** Characters are Unicode scalar values, so the `URIError` that `encodeURIComponent` raises on a lone surrogate cannot arise.
- **The history panel.** It shows the first ten entries (`components/search-history.tsx:32`). That is rendering only.
- **Files outside the search logic.** The service worker, the IP location widget, the suggestions API route, the PWA installer, the theme toggle, the layout, the manifest and the Next.js configuration are network, configuration or markup.
- **Pure rendering components.** The suggestion lists, the bang suggestions and the history list carry no logic beyond the payloads. `Search.ChipPayload` models the bang suggestion payload (`components/bang-suggestions.tsx:26`).
- History.AddToHistory: the function's own contract states only the blank case, the front entry and the bounds. The exact list behind the front entry, and its length, are stated in `History.AddKeepsOthersInOrder`; `History.AddKeepsEntriesBelowCap` adds that nothing but repeats is lost below the cap. Keeping the function's contract small keeps every proof that uses it fast.

=== FILE: catalog.dfy ===
/** The records of the bang registry and the two data sets the registry is
    filled from: the compact records shipped with the application and the
    five-entry fallback installed when loading fails. */
module Catalog {

  /** One shipped record, with the compact field names of the data set:
      category `c`, domain `d`, rank `r`, site name `s`, subcategory `sc`,
      trigger `t` and URL template `u`. */
  datatype RawBang = RawBang(c: string, d: string, r: int, s: string, sc: string, t: string, u: string)

  /** One registry entry as the rest of the application sees it. */
  datatype BangData = BangData(trigger: string, name: string, url: string,
                               category: string, subcategory: string, domain: string)

  /** The placeholder in a URL template that receives the encoded search term. */
  const Placeholder := "{{{s}}}"

  /** A URL template written around its placeholder: the text before it,
      the placeholder, and the text after it. */
  function Url(before: string, after: string): string {
    before + Placeholder + after
  }

  /** The field renaming applied to one record; the rank is dropped. */
  function ToBangData(raw: RawBang): (b: BangData)
    ensures b.trigger == raw.t && b.name == raw.s && b.url == raw.u
    ensures b.category == raw.c && b.subcategory == raw.sc && b.domain == raw.d
  {
    BangData(raw.t, raw.s, raw.u, raw.c, raw.sc, raw.d)
  }

  /** The inverse renaming, given the rank the registry entry no longer carries. */
  function ToRaw(b: BangData, rank: int): (raw: RawBang)
    ensures raw.r == rank
  {
    RawBang(b.category, b.domain, rank, b.name, b.subcategory, b.trigger, b.url)
  }

  /** The rank is the only field the renaming forgets. */
  lemma RenamingRoundTrip(raw: RawBang, b: BangData, rank: int)
    ensures ToRaw(ToBangData(raw), raw.r) == raw
    ensures ToBangData(ToRaw(b, rank)) == b
  {
  }

  /** `transformBangs`: rename the fields of every record, keeping the order. */
  function Transform(raws: seq<RawBang>): (r: seq<BangData>)
    ensures |r| == |raws|
    ensures forall i :: 0 <= i < |raws| ==> r[i] == ToBangData(raws[i])
  {
    seq(|raws|, i requires 0 <= i < |raws| => ToBangData(raws[i]))
  }

  /** Rebuild records from registry entries and their ranks. */
  function Restore(bs: seq<BangData>, ranks: seq<int>): (r: seq<RawBang>)
    requires |ranks| == |bs|
    ensures |r| == |bs|
    ensures forall i :: 0 <= i < |bs| ==> r[i].r == ranks[i]
  {
    seq(|bs|, i requires 0 <= i < |bs| => ToRaw(bs[i], ranks[i]))
  }

  function Ranks(raws: seq<RawBang>): (r: seq<int>)
    ensures |r| == |raws|
  {
    seq(|raws|, i requires 0 <= i < |raws| => raws[i].r)
  }

  /** `transformBangs` loses the ranks and nothing else: the records come
      back from the registry entries and the ranks, and vice versa. */
  lemma TransformRoundTrip(raws: seq<RawBang>, bs: seq<BangData>, ranks: seq<int>)
    requires |ranks| == |bs|
    ensures Restore(Transform(raws), Ranks(raws)) == raws
    ensures Transform(Restore(bs, ranks)) == bs
  {
  }

  /** `transformBangs` maps a concatenation piecewise. */
  lemma TransformAppend(a: seq<RawBang>, b: seq<RawBang>)
    ensures Transform(a + b) == Transform(a) + Transform(b)
  {
  }

  /** The fallback registry, entry by entry. */
  function DefaultEntry(k: nat): BangData {
    match k
    case 0 => BangData("g", "Google",
                    Url("https://www.google.com/search?q=", ""),
                    "Tech", "Search", "www.google.com")
    case 1 => BangData("w", "Wikipedia",
                    Url("https://en.wikipedia.org/wiki/" + "Special:Search?search=", ""),
                    "Reference", "Encyclopedia", "en.wikipedia.org")
    case 2 => BangData("yt", "YouTube",
                    Url("https://www.youtube.com/" + "results?search_query=", ""),
                    "Entertainment", "Video", "www.youtube.com")
    case 3 => BangData("gh", "GitHub",
                    Url("https://github.com/search?q=", ""),
                    "Tech", "Code", "github.com")
    case _ => BangData("so", "Stack Overflow",
                    Url("https://stackoverflow.com/search?q=", ""),
                    "Tech", "Programming", "stackoverflow.com")
  }

  /** `getDefaultBangs`: Google, Wikipedia, YouTube, GitHub and Stack Overflow. */
  function DefaultBangs(): (r: seq<BangData>)
    ensures |r| == 5
  {
    seq(5, k requires 0 <= k < 5 => DefaultEntry(k))
  }

  /** The shipped data set, record by record; each template comes from
      `EmbeddedTemplate` at the same position. */
  function EmbeddedEntry(k: nat): (raw: RawBang)
    ensures raw.u == EmbeddedUrl(k)
  {
    match k
    case 0 => RawBang("Tech", "www.01net.com", 0, "01net", "Downloads (apps)", "01net", EmbeddedUrl(k))
    case 1 => RawBang("Entertainment", "www.bmw2002faq.com", 0, "BMW 2002 FAQ", "Forum", "02faq", EmbeddedUrl(k))
    case 2 => RawBang("Entertainment", "boxofficemojo.com", 0, "Box Office Mojo", "Movies", "0bo", EmbeddedUrl(k))
    case 3 => RawBang("Online Services", "0to255.com", 3, "0to255", "Tools", "0to255", EmbeddedUrl(k))
    case 4 => RawBang("News", "1001boom.com", 3, "1001boom", "Magazine", "1001", EmbeddedUrl(k))
    case 5 => RawBang("Tech", "www.1001fonts.com", 0, "1001 Fonts", "Design", "1001fonts", EmbeddedUrl(k))
    case 6 => RawBang("Tech", "www.101domain.com", 6, "101 Domain", "Domains", "101", EmbeddedUrl(k))
    case 7 => RawBang("Tech", "www.101domain.com", 0, "101domain", "Domains", "101domain", EmbeddedUrl(k))
    case 8 => RawBang("Online Services", "1122.com.uy", 0, "1122", "Search", "1122", EmbeddedUrl(k))
    case 9 => RawBang("Research", "www.1177.se", 5, "1177 V\U{E5}rdguiden", "Health", "1177", EmbeddedUrl(k))
    case 10 => RawBang("Research", "11870.com", 0, "11870", "Food", "11870", EmbeddedUrl(k))
    case 11 => RawBang("Online Services", "118.dk", 4, "TDC 118", "Search", "118", EmbeddedUrl(k))
    case 12 => RawBang("Entertainment", "www.11freunde.de", 0, "11 Freunde", "Sports", "11freunde", EmbeddedUrl(k))
    case 13 => RawBang("Shopping", "search.11st.co.kr", 0, "11\U{BC88}\U{AC00}", "Online (intl)", "11st", EmbeddedUrl(k))
    case 14 => RawBang("Multimedia", "140journos.com", 0, "140journos", "General", "140", EmbeddedUrl(k))
    case 15 => RawBang("News", "14-tage-wettervorhersage.de", 6, "14-tage-wettervorhersage.de", "Weather", "14", EmbeddedUrl(k))
    case 16 => RawBang("Online Services", "b144.co.il", 0, "b144", "Search", "144", EmbeddedUrl(k))
    case 17 => RawBang("News", "www.15min.lt", 0, "15min naujienos", "Newspaper", "15min", EmbeddedUrl(k))
    case 18 => RawBang("Tech", "www.google.com", 0, "Google", "Search", "g", EmbeddedUrl(k))
    case 19 => RawBang("Reference", "en.wikipedia.org", 0, "Wikipedia", "Encyclopedia", "w", EmbeddedUrl(k))
    case 20 => RawBang("Entertainment", "www.youtube.com", 0, "YouTube", "Video", "yt", EmbeddedUrl(k))
    case 21 => RawBang("Tech", "github.com", 0, "GitHub", "Code", "gh", EmbeddedUrl(k))
    case 22 => RawBang("Tech", "stackoverflow.com", 0, "Stack Overflow", "Programming", "so", EmbeddedUrl(k))
    case 23 => RawBang("Social", "www.reddit.com", 0, "Reddit", "Forum", "reddit", EmbeddedUrl(k))
    case 24 => RawBang("Social", "twitter.com", 0, "Twitter", "Social", "twitter", EmbeddedUrl(k))
    case 25 => RawBang("AI", "chat.openai.com", 0, "ChatGPT", "AI", "chatgpt", EmbeddedUrl(k))
    case 26 => RawBang("Shopping", "www.amazon.com", 0, "Amazon", "Shopping", "amazon", EmbeddedUrl(k))
    case 27 => RawBang("Entertainment", "www.netflix.com", 0, "Netflix", "Streaming", "netflix", EmbeddedUrl(k))
    case 28 => RawBang("Entertainment", "open.spotify.com", 0, "Spotify", "Music", "spotify", EmbeddedUrl(k))
    case 29 => RawBang("Maps", "maps.google.com", 0, "Google Maps", "Maps", "maps", EmbeddedUrl(k))
    case 30 => RawBang("Tools", "translate.google.com", 0, "Google Translate", "Translation", "translate", EmbeddedUrl(k))
    case _ => RawBang("Weather", "weather.com", 0, "Weather", "Weather", "weather", EmbeddedUrl(k))
  }

  /** The URL template of each shipped record, in the order the records are
      listed, as the pair of texts before and after its placeholder. */
  function EmbeddedTemplate(k: nat): (string, string) {
    match k
    case 0 => ("http://www.01net.com/" + "recherche/recherche.php?" + "searchstring=", "&chaine=home")
    case 1 => ("https://www.bmw2002faq.com/search/?q=", "")
    case 2 => ("http://boxofficemojo.com/search/?q=", "")
    case 3 => ("http://0to255.com/", "")
    case 4 => ("http://1001boom.com/?s=", "")
    case 5 => ("http://www.1001fonts.com/" + "search.html?search=", "&x=0&y=0")
    case 6 => ("http://www." + "101domain.com/" + "domain-" + "availability-" + "search.htm" + "?q=", "&sa.x=0&sa.y=0")
    case 7 => ("https://www." + "101domain.com/" + "domain-" + "availability-" + "search.htm" + "?q=", "")
    case 8 => ("https://1122.com.uy/buscar/", "/todo-el-pais")
    case 9 => ("http://www.1177.se/Sok/?q=", "")
    case 10 => ("http://11870.com/konsulto?q=", "")
    case 11 => ("http://118.dk/search/go?what=", "")
    case 12 => ("http://www.11freunde.de/search/gss/", "")
    case 13 => ("http://search." + "11st.co.kr/" + "SearchPrdAction." + "tmall?" + "method=" + "getTotalSearch" + "Seller&" + "kwd=", "")
    case 14 => ("https://140journos.com/search?q=", "")
    case 15 => ("https://" + "14-tage-wettervorhersage.de/" + "suche/?q=", "&lg=de")
    case 16 => ("http://b144.co.il/" + "PrivateResults.aspx?&p_name=", "")
    case 17 => ("https://www.15min.lt/paieska?q=", "")
    case 18 => ("https://www.google.com/search?q=", "")
    case 19 => ("https://en.wikipedia.org/wiki/" + "Special:Search?search=", "")
    case 20 => ("https://www.youtube.com/" + "results?search_query=", "")
    case 21 => ("https://github.com/search?q=", "")
    case 22 => ("https://stackoverflow.com/search?q=", "")
    case 23 => ("https://www.reddit.com/search/?q=", "")
    case 24 => ("https://twitter.com/search?q=", "")
    case 25 => ("https://chat.openai.com/?q=", "")
    case 26 => ("https://www.amazon.com/s?k=", "")
    case 27 => ("https://www.netflix.com/search?q=", "")
    case 28 => ("https://open.spotify.com/search/", "")
    case 29 => ("https://www.google.com/maps/search/", "")
    case 30 => ("https://translate.google.com/?text=", "")
    case _ => ("https://www.google.com/search?q=weather+", "")
  }

  /** The joined URL template of the shipped record at position `k`. */
  function EmbeddedUrl(k: nat): string {
    Url(EmbeddedTemplate(k).0, EmbeddedTemplate(k).1)
  }

  /** `getEmbeddedBangs`: the 32 shipped records, in the order they are listed. */
  function EmbeddedBangs(): (r: seq<RawBang>)
    ensures |r| == 32
  {
    seq(32, k requires 0 <= k < 32 => EmbeddedEntry(k))
  }
}

=== FILE: catalog_facts.dfy ===
/** Facts about the shipped data set that the rest of the application
    relies on: its triggers are distinct words, and it holds every popular
    trigger. */
module CatalogFacts {
  import Templates
  import opened Text
  import opened Seqs
  import opened Optional
  import opened Catalog
  import opened Registry

  /** The triggers of the shipped records, by position. */
  function TriggerAt(k: nat): string {
    match k
    case 0 => "01net"
    case 1 => "02faq"
    case 2 => "0bo"
    case 3 => "0to255"
    case 4 => "1001"
    case 5 => "1001fonts"
    case 6 => "101"
    case 7 => "101domain"
    case 8 => "1122"
    case 9 => "1177"
    case 10 => "11870"
    case 11 => "118"
    case 12 => "11freunde"
    case 13 => "11st"
    case 14 => "140"
    case 15 => "14"
    case 16 => "144"
    case 17 => "15min"
    case 18 => "g"
    case 19 => "w"
    case 20 => "yt"
    case 21 => "gh"
    case 22 => "so"
    case 23 => "reddit"
    case 24 => "twitter"
    case 25 => "chatgpt"
    case 26 => "amazon"
    case 27 => "netflix"
    case 28 => "spotify"
    case 29 => "maps"
    case 30 => "translate"
    case _ => "weather"
  }

  lemma EmbeddedTriggersAre()
    ensures forall k :: 0 <= k < 32 ==> EmbeddedBangs()[k].t == TriggerAt(k)
  {
  }

  /** A number that tells apart the shipped triggers: length, first and
      last character. */
  function TriggerKey(t: string): int {
    if t == [] then 0
    else (|t| * 0x20_0000 + t[0] as int) * 0x20_0000 + t[|t| - 1] as int
  }

  /** The keys of the shipped triggers, by position. */
  function KeyAt(k: nat): int {
    match k
    case 0 => 21990333218932
    case 1 => 21990333218929
    case 2 => 13194240196719
    case 3 => 26388379729973
    case 4 => 17592288804913
    case 5 => 39582521360499
    case 6 => 13194242293809
    case 7 => 39582521360494
    case 8 => 17592288804914
    case 9 => 17592288804919
    case 10 => 21990335316016
    case 11 => 13194242293816
    case 12 => 39582521360485
    case 13 => 17592288804980
    case 14 => 13194242293808
    case 15 => 8796195782708
    case 16 => 13194242293812
    case 17 => 21990335316078
    case 18 => 4398262517863
    case 19 => 4398296072311
    case 20 => 8796346777716
    case 21 => 8796309028968
    case 22 => 8796334194799
    case 23 => 26388518142068
    case 24 => 30786568847474
    case 25 => 30786533195892
    case 26 => 26388482490478
    case 27 => 30786556264568
    case 28 => 30786566750329
    case 29 => 17592414634099
    case 30 => 39582661869669
    case _ => 30786575138930
  }

  lemma TriggerKeysAreLow()
    ensures forall k :: 0 <= k < 16 ==> TriggerKey(TriggerAt(k)) == KeyAt(k)
  {
  }

  lemma TriggerKeysAreHigh()
    ensures forall k :: 16 <= k < 32 ==> TriggerKey(TriggerAt(k)) == KeyAt(k)
  {
  }

  lemma TriggerKeysAre()
    ensures forall k :: 0 <= k < 32 ==> TriggerKey(TriggerAt(k)) == KeyAt(k)
  {
    TriggerKeysAreLow();
    TriggerKeysAreHigh();
  }

  function Triggers(raws: seq<RawBang>): (r: seq<string>)
    ensures |r| == |raws|
    ensures forall i :: 0 <= i < |raws| ==> r[i] == raws[i].t
  {
    seq(|raws|, i requires 0 <= i < |raws| => raws[i].t)
  }

  /** The shipped positions listed by increasing key. */
  function OrderAt(x: nat): nat {
    match x
    case 0 => 18
    case 1 => 19
    case 2 => 15
    case 3 => 21
    case 4 => 22
    case 5 => 20
    case 6 => 2
    case 7 => 14
    case 8 => 6
    case 9 => 16
    case 10 => 11
    case 11 => 4
    case 12 => 8
    case 13 => 9
    case 14 => 13
    case 15 => 29
    case 16 => 1
    case 17 => 0
    case 18 => 10
    case 19 => 17
    case 20 => 3
    case 21 => 26
    case 22 => 23
    case 23 => 25
    case 24 => 27
    case 25 => 28
    case 26 => 24
    case 27 => 31
    case 28 => 12
    case 29 => 7
    case 30 => 5
    case _ => 30
  }

  /** The inverse of `OrderAt`. */
  function PosAt(i: nat): nat {
    match i
    case 0 => 17
    case 1 => 16
    case 2 => 6
    case 3 => 20
    case 4 => 11
    case 5 => 30
    case 6 => 8
    case 7 => 29
    case 8 => 12
    case 9 => 13
    case 10 => 18
    case 11 => 10
    case 12 => 28
    case 13 => 14
    case 14 => 7
    case 15 => 2
    case 16 => 9
    case 17 => 19
    case 18 => 0
    case 19 => 1
    case 20 => 5
    case 21 => 3
    case 22 => 4
    case 23 => 22
    case 24 => 26
    case 25 => 23
    case 26 => 21
    case 27 => 24
    case 28 => 25
    case 29 => 15
    case 30 => 31
    case _ => 27
  }

  lemma PosInvertsOrder()
    ensures forall i :: 0 <= i < 32 ==> PosAt(i) < 32 && OrderAt(PosAt(i)) == i
  {
  }

  lemma KeysIncreaseAlongOrderLow()
    ensures forall x :: 0 <= x < 16 ==> KeyAt(OrderAt(x)) < KeyAt(OrderAt(x + 1))
  {
  }

  lemma KeysIncreaseAlongOrderHigh()
    ensures forall x :: 16 <= x < 31 ==> KeyAt(OrderAt(x)) < KeyAt(OrderAt(x + 1))
  {
  }

  lemma KeysDistinct()
    ensures forall i, j :: 0 <= i < j < 32 ==> KeyAt(i) != KeyAt(j)
  {
    PosInvertsOrder();
    KeysIncreaseAlongOrderLow();
    KeysIncreaseAlongOrderHigh();
    DistinctAlongOrder(32, KeyAt, OrderAt, PosAt);
  }

  /** No two shipped records share a trigger, so lookup by trigger is
      unambiguous on the shipped registry. */
  lemma EmbeddedTriggersDistinct()
    ensures NoDuplicates(Triggers(EmbeddedBangs()))
  {
    KeysDistinct();
    EmbeddedTriggersAre();
    TriggerKeysAre();
    var ts := Triggers(EmbeddedBangs());
    forall i, j | 0 <= i < j < 32 ensures ts[i] != ts[j] {
      assert KeyAt(i) != KeyAt(j);
    }
  }

  /** `reg` holds, position by position, the shipped triggers. */
  predicate ListsShippedTriggers(reg: seq<BangData>) {
    |reg| == 32 && forall k :: 0 <= k < 32 ==> reg[k].trigger == TriggerAt(k)
  }

  lemma ShippedRegistryTriggers()
    ensures ListsShippedTriggers(Transform(EmbeddedBangs()))
  {
    EmbeddedTriggersAre();
  }

  lemma TriggerTableWordsLow()
    ensures forall k :: 0 <= k < 16 ==> TriggerAt(k) != [] && IsWord(TriggerAt(k))
  {
  }

  lemma TriggerTableWordsHigh()
    ensures forall k :: 16 <= k < 32 ==> TriggerAt(k) != [] && IsWord(TriggerAt(k))
  {
  }

  /** Every shipped trigger is a non-empty run of `\w` characters, so a
      chip's `!trigger` payload is recognised by the bang pattern. */
  lemma EmbeddedTriggersAreWords()
    ensures forall b :: b in Transform(EmbeddedBangs()) ==> b.trigger != [] && IsWord(b.trigger)
  {
    TriggerTableWordsLow();
    TriggerTableWordsHigh();
    ShippedRegistryTriggers();
  }

  lemma NotPopularBelow18()
    ensures forall k :: 0 <= k < 18 ==> TriggerAt(k) !in PopularTriggers
  {
  }

  lemma PopularFrom18()
    ensures forall k :: 18 <= k < 32 ==> TriggerAt(k) == PopularTriggers[k - 18]
  {
  }

  lemma ShippedHeadNotPopular(reg: seq<BangData>)
    requires ListsShippedTriggers(reg)
    ensures forall i :: 0 <= i < 18 ==> !IsPopular(reg[..18][i], PopularTriggers)
  {
    NotPopularBelow18();
  }

  lemma ShippedTailPopular(reg: seq<BangData>)
    requires ListsShippedTriggers(reg)
    ensures forall x :: 0 <= x < 14 ==> reg[18..][x].trigger == PopularTriggers[x]
  {
    PopularFrom18();
  }

  /** A registry whose first `n` entries have triggers outside `triggers`
      and whose other entries carry exactly `triggers`, in order, keeps
      those other entries when filtered by `triggers`. */
  lemma {:induction false} SelectSuffix(reg: seq<BangData>, n: nat, triggers: seq<string>)
    requires n <= |reg| && |reg| - n == |triggers|
    requires forall i :: 0 <= i < n ==> !IsPopular(reg[..n][i], triggers)
    requires forall x :: 0 <= x < |triggers| ==> reg[n..][x].trigger == triggers[x]
    ensures Filter(IsPopular, triggers, reg) == reg[n..]
  {
    var head, tail := reg[..n], reg[n..];
    assert reg == head + tail;
    FilterAppend(IsPopular, triggers, head, tail);
    FilterNone(IsPopular, triggers, head);
    forall b | b in tail ensures IsPopular(b, triggers) {
      var x :| 0 <= x < |tail| && tail[x] == b;
      assert b.trigger == triggers[x];
    }
    FilterAll(IsPopular, triggers, tail);
  }

  lemma PopularOfShippedTriggers(reg: seq<BangData>)
    requires ListsShippedTriggers(reg)
    ensures GetPopularBangs(reg) == reg[18..]
    ensures forall x :: 0 <= x < |PopularTriggers| ==> reg[18..][x].trigger == PopularTriggers[x]
  {
    ShippedHeadNotPopular(reg);
    ShippedTailPopular(reg);
    SelectSuffix(reg, 18, PopularTriggers);
  }

  /** The shipped registry lists the popular bangs last, in the order of
      the popular list, so the popular subset is exactly those fourteen
      entries, carrying the fourteen popular triggers in list order. */
  lemma EmbeddedPopular()
    ensures GetPopularBangs(Transform(EmbeddedBangs())) == Transform(EmbeddedBangs())[18..]
    ensures |GetPopularBangs(Transform(EmbeddedBangs()))| == |PopularTriggers|
    ensures forall x :: 0 <= x < |PopularTriggers| ==>
              GetPopularBangs(Transform(EmbeddedBangs()))[x].trigger == PopularTriggers[x]
  {
    ShippedRegistryTriggers();
    PopularOfShippedTriggers(Transform(EmbeddedBangs()));
  }

  lemma LookupGoogleOfShippedTriggers(reg: seq<BangData>)
    requires ListsShippedTriggers(reg)
    ensures GetBangByTrigger(reg, "g") == Some(reg[18])
  {
    assert AnswersTo(reg[18], "g");
    forall k | 0 <= k < 32 && k != 18 ensures !AnswersTo(reg[k], "g") {
      if |TriggerAt(k)| == 1 {
        assert k == 19;
        assert Lower(reg[k].trigger)[0] == 'w';
      }
    }
  }

  /** `!g` resolves, on the shipped registry, to its Google record, and
      `!G` to the same record. */
  lemma EmbeddedLookupGoogle()
    ensures GetBangByTrigger(Transform(EmbeddedBangs()), "g") == Some(Transform(EmbeddedBangs())[18])
    ensures GetBangByTrigger(Transform(EmbeddedBangs()), "G") == Some(Transform(EmbeddedBangs())[18])
  {
    ShippedRegistryTriggers();
    LookupGoogleOfShippedTriggers(Transform(EmbeddedBangs()));
    LookupIgnoresCase(Transform(EmbeddedBangs()), "g", "G");
  }

  lemma LookupUnknownOfShippedTriggers(reg: seq<BangData>)
    requires ListsShippedTriggers(reg)
    ensures GetBangByTrigger(reg, "zzznotreal") == None
  {
    assert forall k :: 0 <= k < 32 ==> |TriggerAt(k)| != 10;
    assert forall k :: 0 <= k < 32 ==> !AnswersTo(reg[k], "zzznotreal");
  }

  /** No shipped trigger has ten characters, so `!zzznotreal` finds nothing. */
  lemma EmbeddedLookupUnknown()
    ensures GetBangByTrigger(Transform(EmbeddedBangs()), "zzznotreal") == None
  {
    ShippedRegistryTriggers();
    LookupUnknownOfShippedTriggers(Transform(EmbeddedBangs()));
  }

  /** The fallback registry holds the first five popular bangs, in order. */
  lemma DefaultsArePopular()
    ensures GetPopularBangs(DefaultBangs()) == DefaultBangs()
    ensures forall x :: 0 <= x < 5 ==> DefaultBangs()[x].trigger == PopularTriggers[x]
  {
    var d := DefaultBangs();
    assert forall x :: 0 <= x < 5 ==> d[x].trigger == PopularTriggers[x];
    FilterAll(IsPopular, PopularTriggers, d);
  }

  /** Around a placeholder with no `{` on either side, the placeholder
      occurs once: any occurrence starts with `{`, and the only `{` that
      starts one is the placeholder's first. */
  lemma PlaceholderOnlyAt(before: string, after: string, j: nat)
    requires '{' !in before && '{' !in after
    requires OccursAt(Url(before, after), Placeholder, j)
    ensures j == |before|
  {
    var u := Url(before, after);
    assert u[j..j + 7] == Placeholder;
    assert u[j] == '{' && u[j + 1] == '{' && u[j + 2] == '{' && u[j + 3] == 's' by {
      assert u[j..j + 7][0] == u[j] && u[j..j + 7][1] == u[j + 1];
      assert u[j..j + 7][2] == u[j + 2] && u[j..j + 7][3] == u[j + 3];
    }
  }

  /** A template written as `Url(before, after)` with no `{` around the
      placeholder holds it exactly once. */
  lemma UrlHoldsPlaceholderOnce(before: string, after: string)
    requires '{' !in before && '{' !in after
    ensures OccursOnce(Url(before, after), Placeholder)
  {
    var u := Url(before, after);
    assert u[|before|..|before| + 7] == Placeholder;
    assert OccursAt(u, Placeholder, |before|);
    var i := IndexOf(u, Placeholder).value;
    PlaceholderOnlyAt(before, after, i);
    if i < |u| {
      match IndexFrom(u, Placeholder, i + 1)
      case None =>
      case Some(k) => PlaceholderOnlyAt(before, after, k);
    }
  }

  /** Every shipped template holds the placeholder exactly once, so the
      search term lands in exactly one place of the opened URL. */
  lemma EmbeddedUrlsHoldPlaceholderOnce()
    ensures forall i :: 0 <= i < |EmbeddedBangs()| ==> OccursOnce(EmbeddedBangs()[i].u, Placeholder)
  {
    forall i | 0 <= i < |EmbeddedBangs()|
      ensures OccursOnce(EmbeddedBangs()[i].u, Placeholder)
    {
      var t := EmbeddedTemplate(i);
      Templates.TemplatePlain(i);
      UrlHoldsPlaceholderOnce(t.0, t.1);
    }
  }

  /** The fallback templates are those of the shipped Google, Wikipedia,
      YouTube, GitHub and Stack Overflow records. */
  lemma DefaultUrlShipped(k: nat)
    requires k < 5
    ensures DefaultBangs()[k].url == EmbeddedUrl(18 + k)
  {
  }

  /** Every fallback template holds the placeholder exactly once. */
  lemma DefaultUrlsHoldPlaceholderOnce()
    ensures forall i :: 0 <= i < |DefaultBangs()| ==> OccursOnce(DefaultBangs()[i].url, Placeholder)
  {
    forall i | 0 <= i < |DefaultBangs()|
      ensures OccursOnce(DefaultBangs()[i].url, Placeholder)
    {
      DefaultUrlShipped(i);
      var t := EmbeddedTemplate(18 + i);
      Templates.TemplatePlain(18 + i);
      UrlHoldsPlaceholderOnce(t.0, t.1);
    }
  }
}

=== FILE: chips.dfy ===
/** The quick-bang chips under the search box: a window on the popular
    bangs that can be widened, and the text a chip puts in the search box. */
module Chips {
  import opened Optional
  import opened Seqs
  import opened Text
  import opened Catalog
  import opened Registry
  import opened CatalogFacts
  import opened Query
  import opened History
  import opened Search

  const CollapsedCount := 12
  const ExpandedCount := 50

  /** `displayBangs`: the chips shown, fifty at most when expanded and
      twelve at most when collapsed, from the start of the list. */
  function DisplayBangs(bangs: seq<BangData>, showAll: bool): (r: seq<BangData>)
    ensures |r| == Min(|bangs|, if showAll then ExpandedCount else CollapsedCount)
    ensures r == bangs[..|r|]
  {
    Take(bangs, if showAll then ExpandedCount else CollapsedCount)
  }

  /** The "Show More" / "Show Less" button is rendered only for more than
      twelve bangs. */
  predicate ToggleVisible(bangs: seq<BangData>) {
    |bangs| > CollapsedCount
  }

  /** Pressing the toggle: `None` when there is no button to press,
      otherwise the flipped `showAll`, which always changes the chips shown. */
  function PressToggle(bangs: seq<BangData>, showAll: bool): (r: Option<bool>)
    ensures r.Some? <==> ToggleVisible(bangs)
    ensures r.Some? ==> r.value != showAll && DisplayBangs(bangs, r.value) != DisplayBangs(bangs, showAll)
  {
    if ToggleVisible(bangs) then
      ToggleVisibleIffViewsDiffer(bangs);
      Some(!showAll)
    else None
  }

  /** Pressing the toggle twice returns to the view it started from. */
  lemma PressTwiceRestores(bangs: seq<BangData>, showAll: bool)
    requires ToggleVisible(bangs)
    ensures PressToggle(bangs, PressToggle(bangs, showAll).value) == Some(showAll)
  {
  }

  /** The collapsed chips are the first ones of the expanded chips. */
  lemma CollapsedIsPrefixOfExpanded(bangs: seq<BangData>)
    ensures var few, many := DisplayBangs(bangs, false), DisplayBangs(bangs, true);
            |few| <= |many| && few == many[..|few|]
  {
  }

  /** The toggle is offered exactly when pressing it would change the chips
      shown. */
  lemma {:induction false} ToggleVisibleIffViewsDiffer(bangs: seq<BangData>)
    ensures ToggleVisible(bangs) <==> DisplayBangs(bangs, true) != DisplayBangs(bangs, false)
  {
    if ToggleVisible(bangs) {
      assert |DisplayBangs(bangs, true)| > |DisplayBangs(bangs, false)|;
    }
  }

  /** With at most fifty bangs, the expanded view shows them all. */
  lemma ExpandedShowsAllUpToFifty(bangs: seq<BangData>)
    requires |bangs| <= ExpandedCount
    ensures DisplayBangs(bangs, true) == bangs
  {
  }

  /** On the shipped registry the fourteen popular bangs are listed: the
      toggle is shown, the collapsed view holds the first twelve and the
      expanded view all fourteen. */
  lemma ShippedChips()
    ensures var popular := GetPopularBangs(Transform(EmbeddedBangs()));
            && ToggleVisible(popular)
            && DisplayBangs(popular, false) == popular[..12]
            && DisplayBangs(popular, true) == popular
  {
    EmbeddedPopular();
  }

  /** Clicking a chip of a bang in the registry and submitting at once opens
      that trigger's bang in a new tab, with an empty term, and clears the
      search box. */
  lemma ChipClickThenSubmitOpensBang(bangs: seq<BangData>, history: seq<string>, b: BangData)
    requires b in bangs && b.trigger != [] && IsWord(b.trigger)
    ensures var q := HandleBangClick(ChipPayload(b));
            var r := HandleSearch(bangs, history, q, None);
            && r.action == OpenInNewTab(BangUrl(GetBangByTrigger(bangs, b.trigger).value, []))
            && r.query == []
            && r.history == AddToHistory(history, q)
  {
    var q := HandleBangClick(ChipPayload(b));
    ChipClickSelectsBang(b);
    assert q[0] == '!';
    NotBlank(q);
    assert AnswersTo(b, b.trigger);
  }

  /** Every chip of the shipped registry opens its bang when clicked and
      submitted. */
  lemma ShippedChipsOpen(history: seq<string>, b: BangData)
    requires b in GetPopularBangs(Transform(EmbeddedBangs()))
    ensures HandleSearch(Transform(EmbeddedBangs()), history, HandleBangClick(ChipPayload(b)), None)
              .action.OpenInNewTab?
  {
    EmbeddedTriggersAreWords();
    ChipClickThenSubmitOpensBang(Transform(EmbeddedBangs()), history, b);
  }
}

=== FILE: history.dfy ===
/** The search history: most recent first, without repeats, at most fifty
    entries, persisted to browser storage. */
module History {
  import opened Text
  import opened Seqs

  const MaxHistoryItems := 50

  predicate Differs(item: string, query: string) {
    item != query
  }

  /** `addToHistory`: a blank query leaves the history alone; any other
      query moves (or is added) to the front, exactly as typed, and the
      oldest entries beyond fifty are dropped. */
  function AddToHistory(history: seq<string>, query: string): (r: seq<string>)
    ensures Trim(query) == [] ==> r == history
    ensures Trim(query) != [] ==> 1 <= |r| <= MaxHistoryItems && r[0] == query
  {
    if Trim(query) == [] then history
    else Take([query] + Filter(Differs, query, history), MaxHistoryItems)
  }

  /** Behind the new front entry come earlier entries only, in their old
      order, none of them equal to the query: exactly the earlier entries
      other than the query, as many of them as the cap leaves room for. */
  lemma AddKeepsOthersInOrder(history: seq<string>, query: string)
    requires Trim(query) != []
    ensures var r := AddToHistory(history, query);
            && (forall i :: 1 <= i < |r| ==> r[i] != query && r[i] in history)
            && IsSubsequence(r[1..], history)
    ensures var r := AddToHistory(history, query);
            var others := Filter(Differs, query, history);
            && |r| == Min(MaxHistoryItems, 1 + |others|)
            && r[1..] == others[..|r| - 1]
  {
    var others := Filter(Differs, query, history);
    var r := AddToHistory(history, query);
    assert r[1..] == others[..|r| - 1];
    assert forall i :: 1 <= i < |r| ==> r[i] == others[i - 1] && r[i] in others;
    PrefixOfSubsequence(others, history, |r| - 1);
  }

  /** Nothing is lost but repeats of the query, until the cap is reached:
      while the result has room, every earlier entry is still in it. */
  lemma AddKeepsEntriesBelowCap(history: seq<string>, query: string)
    requires Trim(query) != []
    requires |AddToHistory(history, query)| < MaxHistoryItems
    ensures forall x :: x in history ==> x in AddToHistory(history, query)
  {
    var others := Filter(Differs, query, history);
    assert AddToHistory(history, query) == [query] + others;
  }

  /** Adding to a history without repeats gives a history without repeats. */
  lemma AddKeepsDistinct(history: seq<string>, query: string)
    requires NoDuplicates(history)
    ensures NoDuplicates(AddToHistory(history, query))
  {
    if Trim(query) != [] {
      var r := AddToHistory(history, query);
      AddKeepsOthersInOrder(history, query);
      SubsequenceNoDuplicates(r[1..], history);
      forall i, j | 0 <= i < j < |r| ensures r[i] != r[j] {
        if i > 0 {
          assert r[i] == r[1..][i - 1] && r[j] == r[1..][j - 1];
        }
      }
    }
  }

  /** Filtering out `query` changes nothing when it does not occur. */
  lemma FilterAbsent(history: seq<string>, query: string)
    requires query !in history
    ensures Filter(Differs, query, history) == history
  {
    FilterAll(Differs, query, history);
  }

  lemma TakeOfTake(q: string, s: seq<string>, n: nat)
    requires n >= 1
    ensures Take([q] + Take(s, n - 1), n) == Take([q] + s, n)
  {
  }

  /** Submitting the same query twice in a row records it once. */
  lemma AddIdempotent(history: seq<string>, query: string)
    ensures AddToHistory(AddToHistory(history, query), query) == AddToHistory(history, query)
  {
    if Trim(query) != [] {
      var once := AddToHistory(history, query);
      AddKeepsOthersInOrder(history, query);
      assert once == [query] + once[1..];
      FilterAppend(Differs, query, [query], once[1..]);
      assert forall x :: x in once[1..] ==> Differs(x, query);
      FilterAll(Differs, query, once[1..]);
      assert Filter(Differs, query, once) == once[1..];
    }
  }

  /** `clearHistory`. */
  function ClearHistory(history: seq<string>): (r: seq<string>)
    ensures |r| == 0
  {
    []
  }

  /** After clearing, the next search is the only entry. */
  lemma AddAfterClear(history: seq<string>, query: string)
    requires Trim(query) != []
    ensures AddToHistory(ClearHistory(history), query) == [query]
  {
  }

  /** What the storage holds under `search-history` when the page loads. */
  datatype SavedHistory = Missing | Corrupt | Saved(items: seq<string>)

  /** The history on page load: the saved list as stored, or the empty
      history when nothing (or nothing readable) was saved. The saved list
      is taken as it is, without the cap or the repeat check. */
  function RestoreHistory(saved: SavedHistory): (r: seq<string>)
    ensures saved.Saved? ==> r == saved.items
    ensures !saved.Saved? ==> r == []
  {
    if saved.Saved? then saved.items else []
  }

  /** What a reload after a search finds: the saved list comes back with
      the new query in front, within the cap, and still without repeats
      when the history had none. */
  lemma ReloadAfterAdd(history: seq<string>, query: string)
    requires Trim(query) != [] && NoDuplicates(history)
    ensures var r := RestoreHistory(Saved(AddToHistory(history, query)));
            && 1 <= |r| <= MaxHistoryItems && r[0] == query && NoDuplicates(r)
  {
    AddKeepsDistinct(history, query);
  }

  /** A reload after clearing finds nothing saved, so the history is empty. */
  lemma ReloadAfterClear(history: seq<string>)
    ensures RestoreHistory(Missing) == ClearHistory(history)
  {
  }

  /** The history after submitting `qs` in order. */
  function AddAll(history: seq<string>, qs: seq<string>): seq<string>
    decreases |qs|
  {
    if qs == [] then history
    else AddToHistory(AddAll(history, qs[..|qs| - 1]), qs[|qs| - 1])
  }

  function Reverse<T>(s: seq<T>): (r: seq<T>)
    ensures |r| == |s|
    ensures forall i :: 0 <= i < |s| ==> r[i] == s[|s| - 1 - i]
  {
    seq(|s|, i requires 0 <= i < |s| => s[|s| - 1 - i])
  }

  /** A query not yet in the history is put in front of it. */
  lemma AddFresh(history: seq<string>, query: string)
    requires Trim(query) != [] && query !in history
    ensures AddToHistory(history, query) == Take([query] + history, MaxHistoryItems)
  {
    FilterAbsent(history, query);
  }

  lemma ReverseSnoc(init: seq<string>, q: string)
    ensures Reverse(init + [q]) == [q] + Reverse(init)
  {
  }

  /** The last of distinct queries is not among the earlier ones. */
  lemma LastIsFresh(qs: seq<string>, n: nat)
    requires NoDuplicates(qs) && qs != []
    ensures qs[|qs| - 1] !in Take(Reverse(qs[..|qs| - 1]), n)
  {
    var init, q := qs[..|qs| - 1], qs[|qs| - 1];
    var before := Take(Reverse(init), n);
    forall i | 0 <= i < |before| ensures before[i] != q {
      assert before[i] == qs[|init| - 1 - i];
    }
  }

  /** A prefix of a list without repeats has none. */
  lemma PrefixNoDuplicates(qs: seq<string>, n: nat)
    requires NoDuplicates(qs) && n <= |qs|
    ensures NoDuplicates(qs[..n])
  {
    assert forall i :: 0 <= i < n ==> qs[..n][i] == qs[i];
  }

  /** Adding a query absent from the newest-first window of `init` gives
      the newest-first window of `init + [q]`. */
  lemma FreshStep(init: seq<string>, q: string)
    requires Trim(q) != [] && q !in Take(Reverse(init), MaxHistoryItems)
    ensures AddToHistory(Take(Reverse(init), MaxHistoryItems), q) == Take(Reverse(init + [q]), MaxHistoryItems)
  {
    AddFresh(Take(Reverse(init), MaxHistoryItems), q);
    TakeOfTake(q, Reverse(init), MaxHistoryItems);
    ReverseSnoc(init, q);
  }

  /** Submitting distinct non-blank queries to an empty history keeps the
      fifty most recent, newest first. */
  lemma {:induction false} AddAllDistinct(qs: seq<string>)
    requires NoDuplicates(qs)
    requires forall i :: 0 <= i < |qs| ==> Trim(qs[i]) != []
    ensures AddAll([], qs) == Take(Reverse(qs), MaxHistoryItems)
    decreases |qs|
  {
    if qs != [] {
      var init, q := qs[..|qs| - 1], qs[|qs| - 1];
      PrefixNoDuplicates(qs, |qs| - 1);
      assert forall i :: 0 <= i < |init| ==> init[i] == qs[i];
      assert qs == init + [q];
      calc {
        AddAll([], qs);
        AddToHistory(AddAll([], init), q);
        { AddAllDistinct(init); }
        AddToHistory(Take(Reverse(init), MaxHistoryItems), q);
        { LastIsFresh(qs, MaxHistoryItems); FreshStep(init, q); }
        Take(Reverse(qs), MaxHistoryItems);
      }
    }
  }

  /** The fifty-first distinct search evicts the first one. */
  lemma FiftyFirstEvictsOldest(qs: seq<string>)
    requires |qs| == 51 && NoDuplicates(qs)
    requires forall i :: 0 <= i < |qs| ==> Trim(qs[i]) != []
    ensures |AddAll([], qs)| == 50
    ensures AddAll([], qs)[0] == qs[50]
    ensures qs[0] !in AddAll([], qs)
  {
    AddAllDistinct(qs);
    WindowOfDistinct(qs);
  }

  /** The newest-first window of fifty-one distinct queries. */
  lemma WindowOfDistinct(qs: seq<string>)
    requires |qs| == 51 && NoDuplicates(qs)
    ensures var r := Take(Reverse(qs), MaxHistoryItems);
            |r| == 50 && r[0] == qs[50] && qs[0] !in r
  {
    var r := Take(Reverse(qs), MaxHistoryItems);
    forall i | 0 <= i < |r| ensures r[i] != qs[0] {
      assert r[i] == qs[50 - i];
    }
  }

  /** A text that starts with a character outside `\s` is not blank. */
  lemma NotBlank(q: string)
    requires q != [] && !IsSpace(q[0])
    ensures Trim(q) != []
  {
    TrimEmptyIffBlank(q);
  }

  /** A query submitted again moves to the front instead of repeating. */
  lemma RepeatMovesToFront()
    ensures AddAll([], ["a", "b", "a"]) == ["a", "b"]
  {
    NotBlank("a");
    NotBlank("b");
    var qs := ["a", "b", "a"];
    assert qs[..2] == ["a", "b"] && qs[..2][..1] == ["a"] && qs[..2][..1][..0] == [];
    assert AddAll([], ["a"]) == ["a"];
    assert Filter(Differs, "b", ["a"]) == ["a"];
    assert AddAll([], ["a", "b"]) == ["b", "a"];
    assert Filter(Differs, "a", ["b", "a"]) == ["b"];
  }

  /** Repeats are recognised by exact equality: a query differing only in
      case or in trailing white space is a separate entry. */
  lemma RepeatsAreExact()
    ensures AddToHistory(["a"], "A") == ["A", "a"]
    ensures AddToHistory(["a"], "a ") == ["a ", "a"]
  {
    NotBlank("A");
    NotBlank("a ");
    assert "A" != "a" && "a " != "a";
    assert Filter(Differs, "A", ["a"]) == ["a"];
    assert Filter(Differs, "a ", ["a"]) == ["a"];
  }
}

=== FILE: optional.dfy ===
/** The conventional Some/None datatype, used wherever the source returns
    `undefined` or a regex match returns `null`. */
module Optional {

  datatype Option<+T> = None | Some(value: T) {

    /** Returns the value in Some, or the given default for None. */
    function GetOr(default: T): T {
      match this
      case Some(v) => v
      case None => default
    }
  }
}

=== FILE: query.dfy ===
/** How the search box reads its text: the bang pattern applied when a
    search is submitted, the stricter pattern that decides whether the
    input shows a bang chip, the text re-assembled when the chip's input
    is edited, and the text sent for suggestions. */
module Query {
  import opened Optional
  import opened Text

  /** The text starts with `!` followed by a `\w` character: the only way
      any of the bang patterns can match. */
  predicate HasBangPrefix(s: string) {
    |s| >= 2 && s[0] == '!' && IsWordChar(s[1])
  }

  /** The end of the greedy `\w+` run that follows the leading `!`. */
  function TriggerEnd(s: string): (e: nat)
    requires HasBangPrefix(s)
    ensures 2 <= e <= |s|
    ensures IsWord(s[1..e])
    ensures e < |s| ==> !IsWordChar(s[e])
  {
    var n := Span(s[1..], IsWordChar);
    assert forall i :: 1 <= i < 1 + n ==> s[i] == s[1..][i - 1];
    1 + n
  }

  /** The two groups of `/^!(\w+)\s*(.*)/`: the trigger and the search term. */
  datatype BangMatch = BangMatch(trigger: string, term: string)

  /** How a successful match of `/^!(\w+)\s*(.*)/` cuts the text: `!`, the
      trigger, the skipped white space, the term and the unmatched tail.
      `\w+` and `\s*` are greedy, and `.` stops at the first line
      terminator. */
  ghost predicate BangShape(s: string, trigger: string, ws: string, term: string, tail: string) {
    && s == "!" + trigger + ws + term + tail
    && trigger != [] && IsWord(trigger)
    && IsBlank(ws)
    && SingleLine(term)
    && (tail != [] ==> IsLineTerminator(tail[0]))
    && (ws + term + tail != [] ==> !IsWordChar((ws + term + tail)[0]))
    && (term + tail != [] ==> !IsSpace((term + tail)[0]))
  }

  /** `finalQuery.match(/^!(\w+)\s*(.*)/)`: `None` is the `null` match. */
  function ParseBang(s: string): (r: Option<BangMatch>)
    ensures r.None? <==> !HasBangPrefix(s)
    ensures r.Some? ==> r.value.trigger != [] && IsWord(r.value.trigger)
    ensures r.Some? ==> SingleLine(r.value.term)
  {
    if !HasBangPrefix(s) then None
    else
      var e := TriggerEnd(s);
      var body := TrimStart(s[e..]);
      Some(BangMatch(s[1..e], body[..Span(body, NotLineTerminator)]))
  }

  /** Assembles the shape of a match from its successive cuts. */
  lemma ShapeFromCuts(s: string, trigger: string, after: string, ws: string, body: string,
                      term: string, tail: string)
    requires s == "!" + trigger + after && after == ws + body && body == term + tail
    requires trigger != [] && IsWord(trigger) && IsBlank(ws) && SingleLine(term)
    requires tail != [] ==> IsLineTerminator(tail[0])
    requires after != [] ==> !IsWordChar(after[0])
    requires body != [] ==> !IsSpace(body[0])
    ensures BangShape(s, trigger, ws, term, tail)
  {
    assert ws + term + tail == after;
    assert s == "!" + trigger + ws + term + tail;
  }

  /** A text starting with `!` is the `!`, the text up to `e`, and the rest. */
  lemma SplitAfterTrigger(s: string, e: nat)
    requires s != [] && s[0] == '!' && 1 <= e <= |s|
    ensures s == "!" + s[1..e] + s[e..]
  {
    assert s == s[..e] + s[e..];
    assert s[..e] == "!" + s[1..e];
  }

  /** How `\s*(.*)` cuts the text after the trigger: white space, the
      term, and the tail from the first line terminator on. */
  lemma CutAfterTrigger(after: string) returns (ws: string, body: string, term: string, tail: string)
    ensures after == ws + body && body == term + tail
    ensures IsBlank(ws) && SingleLine(term)
    ensures tail != [] ==> IsLineTerminator(tail[0])
    ensures body != [] ==> !IsSpace(body[0])
    ensures body == TrimStart(after) && term == body[..Span(body, NotLineTerminator)]
  {
    LeadingBlank(after);
    TrimStartHead(after);
    ws, body := after[..Span(after, IsSpace)], TrimStart(after);
    var n := Span(body, NotLineTerminator);
    term, tail := body[..n], body[n..];
    assert body == term + tail;
    assert forall i :: 0 <= i < n ==> term[i] == body[i];
  }

  /** Every match cuts the text as the pattern prescribes. */
  lemma ParseBangSound(s: string)
    requires ParseBang(s).Some?
    ensures exists ws, tail :: BangShape(s, ParseBang(s).value.trigger, ws, ParseBang(s).value.term, tail)
  {
    var e := TriggerEnd(s);
    var after := s[e..];
    SplitAfterTrigger(s, e);
    var ws, body, term, tail := CutAfterTrigger(after);
    assert ParseBang(s).value == BangMatch(s[1..e], term);
    ShapeFromCuts(s, s[1..e], after, ws, body, term, tail);
  }

  /** After `!` and a maximal word, the greedy `\w+` ends with that word. */
  lemma TriggerEndAt(s: string, trigger: string, rest: string)
    requires s == "!" + trigger + rest && trigger != [] && IsWord(trigger)
    requires rest != [] ==> !IsWordChar(rest[0])
    ensures HasBangPrefix(s)
    ensures TriggerEnd(s) == 1 + |trigger|
    ensures s[1..TriggerEnd(s)] == trigger && s[TriggerEnd(s)..] == rest
  {
    assert s[1..] == trigger + rest;
    SpanOfPrefix(trigger, rest, IsWordChar);
    assert s[1..1 + |trigger|] == trigger;
    assert s[1 + |trigger|..] == rest;
  }

  /** `TrimStart` drops exactly a leading blank run. */
  lemma TrimStartOf(ws: string, body: string)
    requires IsBlank(ws) && (body != [] ==> !IsSpace(body[0]))
    ensures TrimStart(ws + body) == body
  {
    SpanOfPrefix(ws, body, IsSpace);
    assert (ws + body)[|ws|..] == body;
  }

  /** `.*` takes a line up to the first line terminator. */
  lemma LineOf(term: string, tail: string)
    requires SingleLine(term) && (tail != [] ==> IsLineTerminator(tail[0]))
    ensures (term + tail)[..Span(term + tail, NotLineTerminator)] == term
  {
    SpanOfPrefix(term, tail, NotLineTerminator);
    assert (term + tail)[..|term|] == term;
  }

  /** The pattern cuts a text in at most one way: any cut with the shape
      of a match is the one `ParseBang` finds. */
  lemma ParseBangUnique(s: string, trigger: string, ws: string, term: string, tail: string)
    requires BangShape(s, trigger, ws, term, tail)
    ensures ParseBang(s) == Some(BangMatch(trigger, term))
  {
    var rest := ws + term + tail;
    assert s == "!" + trigger + rest;
    TriggerEndAt(s, trigger, rest);
    assert rest == ws + (term + tail);
    TrimStartOf(ws, term + tail);
    LineOf(term, tail);
  }

  /** The groups of `/^!(\w+)(\s+.*)?$/`: the trigger and, when the
      optional group takes part, the text after it. */
  datatype InputMatch = InputMatch(trigger: string, rest: Option<string>)

  /** A text `query.match(/^!(\w+)(\s+.*)?$/)` matches: the trigger runs to
      the end, or is followed by white space and then a single line that
      reaches the end of the text. */
  ghost predicate InputShape(s: string, trigger: string, rest: Option<string>) {
    && trigger != [] && IsWord(trigger)
    && match rest
       case None => s == "!" + trigger
       case Some(r) =>
         && s == "!" + trigger + r
         && exists k :: 1 <= k <= |r| && IsBlank(r[..k]) && SingleLine(r[k..])
  }

  /** `query.match(/^!(\w+)(\s+.*)?$/)`, deciding whether the input shows a
      bang chip. */
  function MatchInput(s: string): (r: Option<InputMatch>)
    ensures r.Some? ==> HasBangPrefix(s) && r.value.trigger == ParseBang(s).value.trigger
    ensures r.Some? && r.value.rest.Some? ==> r.value.rest.value != [] && IsSpace(r.value.rest.value[0])
  {
    if !HasBangPrefix(s) then None
    else
      var e := TriggerEnd(s);
      var r := s[e..];
      if r == [] then Some(InputMatch(s[1..e], None))
      else if IsSpace(r[0]) && SingleLine(TrimStart(r)) then Some(InputMatch(s[1..e], Some(r)))
      else None
  }

  /** Skipping more white space leaves a shorter suffix of a single line. */
  lemma SingleLineSuffix(r: string, k: nat, a: nat)
    requires k <= a <= |r|
    requires SingleLine(r[k..])
    ensures SingleLine(r[a..])
  {
    assert forall i :: 0 <= i < |r| - a ==> r[a..][i] == r[k..][i + a - k];
  }

  /** `MatchInput` matches exactly the texts of the shape the pattern
      describes, with the groups the shape names. */
  lemma MatchInputSound(s: string)
    requires MatchInput(s).Some?
    ensures InputShape(s, MatchInput(s).value.trigger, MatchInput(s).value.rest)
  {
    var e := TriggerEnd(s);
    var r := s[e..];
    SplitAfterTrigger(s, e);
    if r != [] {
      LeadingBlank(r);
      var a := Span(r, IsSpace);
      assert 1 <= a && IsBlank(r[..a]) && SingleLine(r[a..]);
    }
  }

  lemma MatchInputComplete(s: string, trigger: string, rest: Option<string>)
    requires InputShape(s, trigger, rest)
    ensures MatchInput(s) == Some(InputMatch(trigger, rest))
  {
    var r := rest.GetOr([]);
    assert s == "!" + trigger + r;
    assert s[1..] == trigger + r;
    if r != [] {
      var k :| 1 <= k <= |r| && IsBlank(r[..k]) && SingleLine(r[k..]);
      assert IsSpace(r[..k][0]);
      assert forall i :: 0 <= i < k ==> IsSpace(r[i]) by {
        forall i | 0 <= i < k ensures IsSpace(r[i]) {
          assert r[i] == r[..k][i];
        }
      }
      var a := Span(r, IsSpace);
      assert a >= k;
      SingleLineSuffix(r, k, a);
    }
    SpanOfPrefix(trigger, r, IsWordChar);
    assert s[1..TriggerEnd(s)] == trigger;
  }

  /** The text the chip's input shows: `rest ? rest.replace(/^\s+/, "") : ""`,
      the rest of the text without its leading white space. */
  function InputValue(m: InputMatch): (v: string)
    ensures m.rest.None? ==> v == []
    ensures m.rest.Some? ==> var r := m.rest.value;
              |v| <= |r| && v == r[|r| - |v|..] && IsBlank(r[..|r| - |v|])
    ensures v != [] ==> !IsSpace(v[0])
  {
    match m.rest
    case None => ""
    case Some(r) =>
      if r == [] then ""
      else
        LeadingBlank(r);
        TrimStartHead(r);
        TrimStart(r)
  }

  /** What editing the chip's input to `value` stores as the query. */
  function Recompose(trigger: string, value: string): string {
    "!" + trigger + " " + value
  }

  /** Whenever the input shows a chip, submitting resolves the same trigger
      and searches exactly the text shown in the input. */
  lemma DisplayAgreesWithSubmit(s: string)
    requires MatchInput(s).Some?
    ensures ParseBang(s) == Some(BangMatch(MatchInput(s).value.trigger, InputValue(MatchInput(s).value)))
  {
    var e := TriggerEnd(s);
    var body := TrimStart(s[e..]);
    if s[e..] == [] {
      assert body == [];
    } else {
      assert SingleLine(body);
      assert body[..Span(body, NotLineTerminator)] == body;
    }
  }

  /** The submit pattern accepts more than the chip pattern: text straight
      after the trigger, as in `!g-x`, is searched for but shows no chip. */
  lemma SubmitAcceptsMoreThanDisplay()
    ensures MatchInput("!g-x") == None
    ensures ParseBang("!g-x") == Some(BangMatch("g", "-x"))
  {
    var s := "!g-x";
    assert !IsWordChar(s[2]) && !IsSpace(s[2]);
    assert BangShape(s, "g", "", "-x", "");
    ParseBangUnique(s, "g", "", "-x", "");
  }

  /** The submitted term stops at the first line break. */
  lemma TermStopsAtLineBreak()
    ensures ParseBang("!g a\nb") == Some(BangMatch("g", "a"))
  {
    var s := "!g a\nb";
    assert s == "!" + "g" + " " + "a" + "\nb";
    assert BangShape(s, "g", " ", "a", "\nb");
    ParseBangUnique(s, "g", " ", "a", "\nb");
  }

  /** A text without leading white space survives `TrimStart`. */
  lemma TrimStartKeeps(v: string)
    requires v != [] ==> !IsSpace(v[0])
    ensures TrimStart(v) == v
  {
  }

  lemma TrimStartAfterSpace(v: string)
    ensures TrimStart(" " + v) == TrimStart(v)
  {
    assert (" " + v)[1..] == v;
  }

  /** Editing the chip's input to a single line `value` keeps the chip for
      the same trigger and shows `value` without its leading white space;
      submitting then searches that same text. */
  lemma RecomposeRoundTrip(trigger: string, value: string)
    requires trigger != [] && IsWord(trigger)
    requires SingleLine(value)
    ensures MatchInput(Recompose(trigger, value)) == Some(InputMatch(trigger, Some(" " + value)))
    ensures InputValue(InputMatch(trigger, Some(" " + value))) == TrimStart(value)
    ensures ParseBang(Recompose(trigger, value)) == Some(BangMatch(trigger, TrimStart(value)))
  {
    var s := Recompose(trigger, value);
    var r := " " + value;
    assert s == "!" + trigger + r;
    assert r[1..] == value;
    assert IsBlank(r[..1]);
    assert InputShape(s, trigger, Some(r));
    MatchInputComplete(s, trigger, Some(r));
    TrimStartAfterSpace(value);
    DisplayAgreesWithSubmit(s);
  }

  /** What the chip's input shows is a fixed point of editing: storing the
      shown text back gives the same chip and the same shown text. */
  lemma DisplayStable(s: string)
    requires MatchInput(s).Some?
    ensures MatchInput(Recompose(MatchInput(s).value.trigger, InputValue(MatchInput(s).value))).Some?
    ensures var m := MatchInput(s).value;
            var m' := MatchInput(Recompose(m.trigger, InputValue(m))).value;
            m'.trigger == m.trigger && InputValue(m') == InputValue(m)
  {
    var m := MatchInput(s).value;
    var v := InputValue(m);
    MatchInputSound(s);
    assert v != [] ==> !IsSpace(v[0]);
    assert SingleLine(v);
    RecomposeRoundTrip(m.trigger, v);
    TrimStartKeeps(v);
  }

  /** `q.replace` with the pattern `^!\w+\s*` and an empty replacement:
      drop a leading bang and the white space after it. */
  function StripBangPrefix(q: string): (r: string)
    ensures !HasBangPrefix(q) ==> r == q
    ensures HasBangPrefix(q) ==>
              && |r| <= |q| - TriggerEnd(q) && r == q[|q| - |r|..]
              && IsBlank(q[TriggerEnd(q)..|q| - |r|])
              && (r != [] ==> !IsSpace(r[0]))
  {
    if HasBangPrefix(q) then
      var after := q[TriggerEnd(q)..];
      LeadingBlank(after);
      TrimStartHead(after);
      assert after[..Span(after, IsSpace)] == q[TriggerEnd(q)..TriggerEnd(q) + Span(after, IsSpace)];
      TrimStart(after)
    else q
  }

  /** For a single-line text with a bang, what is stripped for suggestions
      is exactly the term a submit would search. */
  lemma StripAgreesWithSubmit(q: string)
    requires HasBangPrefix(q) && SingleLine(q)
    ensures StripBangPrefix(q) == ParseBang(q).value.term
  {
    var body := TrimStart(q[TriggerEnd(q)..]);
    assert forall i :: 0 <= i < |body| ==> body[i] == q[|q| - |body| + i];
    assert body[..Span(body, NotLineTerminator)] == body;
  }

  /** The text the debounced suggestion fetch sends for the input `q`, or
      `None` when it sends nothing. */
  function SuggestionQuery(q: string): (r: Option<string>)
    ensures r.Some? ==> r.value != []
    ensures Trim(q) == [] ==> r.None?
  {
    if Trim(q) == [] then None
    else
      var clean := Trim(StripBangPrefix(q));
      if clean != [] then Some(clean)
      else if !StartsWith(q, "!") then Some(q)
      else None
  }

  /** The fallback branch that sends the raw text never fires: the text
      sent is always the trimmed text after any bang, and nothing is sent
      when that is empty. */
  lemma SuggestionQueryIsStrippedText(q: string)
    ensures SuggestionQuery(q) == (if Trim(StripBangPrefix(q)) != [] then Some(Trim(StripBangPrefix(q))) else None)
  {
    if HasBangPrefix(q) {
      TrimEmptyIffBlank(q);
      assert !IsBlank(q);
      assert StartsWith(q, "!");
    } else {
      assert StripBangPrefix(q) == q;
    }
  }
}

=== FILE: registry.dfy ===
/** The bang registry's queries and its loading procedure: lookup by
    trigger, the `!`-prefix filter, the popular subset, and the sequence of
    registry values a load installs. */
module Registry {
  import opened Optional
  import opened Text
  import opened Seqs
  import opened Catalog

  /** A registry entry answers to a trigger when the two agree up to case. */
  predicate AnswersTo(b: BangData, trigger: string) {
    Lower(b.trigger) == Lower(trigger)
  }

  /** Position of the first entry of `bangs` that answers to `trigger`. */
  function FindTrigger(bangs: seq<BangData>, trigger: string): (r: Option<nat>)
    ensures r.Some? ==> r.value < |bangs| && AnswersTo(bangs[r.value], trigger)
    ensures r.Some? ==> forall j :: 0 <= j < r.value ==> !AnswersTo(bangs[j], trigger)
    ensures r.None? <==> forall j :: 0 <= j < |bangs| ==> !AnswersTo(bangs[j], trigger)
  {
    if bangs == [] then None
    else if AnswersTo(bangs[0], trigger) then Some(0)
    else match FindTrigger(bangs[1..], trigger)
      case None => None
      case Some(i) => Some(i + 1)
  }

  /** `getBangByTrigger`: the first entry whose trigger equals `trigger`
      ignoring case, or nothing. */
  function GetBangByTrigger(bangs: seq<BangData>, trigger: string): (r: Option<BangData>)
    ensures r.Some? <==> exists i :: 0 <= i < |bangs| && AnswersTo(bangs[i], trigger)
    ensures r.Some? ==> exists i :: 0 <= i < |bangs| && bangs[i] == r.value
                                && AnswersTo(bangs[i], trigger)
                                && forall j :: 0 <= j < i ==> !AnswersTo(bangs[j], trigger)
  {
    match FindTrigger(bangs, trigger)
    case None => None
    case Some(i) => Some(bangs[i])
  }

  /** Lookup does not see case: triggers that lower-case alike find the
      same entry. */
  lemma LookupIgnoresCase(bangs: seq<BangData>, x: string, y: string)
    requires Lower(x) == Lower(y)
    ensures GetBangByTrigger(bangs, x) == GetBangByTrigger(bangs, y)
  {
    LookupDependsOnLowered(bangs, x, y);
  }

  lemma {:induction false} LookupDependsOnLowered(bangs: seq<BangData>, x: string, y: string)
    requires Lower(x) == Lower(y)
    ensures FindTrigger(bangs, x) == FindTrigger(bangs, y)
  {
    if bangs != [] {
      LookupDependsOnLowered(bangs[1..], x, y);
    }
  }

  /** Entries listed before every other entry with the same trigger win:
      a registry whose first entry answers returns that entry. */
  lemma LookupFindsFirst(b: BangData, rest: seq<BangData>, trigger: string)
    requires AnswersTo(b, trigger)
    ensures GetBangByTrigger([b] + rest, trigger) == Some(b)
  {
  }

  /** The substring test of `getFilteredBangs` and `getRelevantBangs`: the
      (already lower-cased) term occurs in the lower-cased trigger, name,
      category or subcategory. The URL and domain are not searched. */
  predicate MatchesTerm(b: BangData, term: string) {
    || Contains(Lower(b.trigger), term)
    || Contains(Lower(b.name), term)
    || Contains(Lower(b.category), term)
    || Contains(Lower(b.subcategory), term)
  }

  /** The empty term matches every entry. */
  lemma MatchesEmptyTerm(b: BangData)
    ensures MatchesTerm(b, [])
  {
    ContainsEmpty(Lower(b.trigger));
  }

  /** Every entry survives filtering by the empty term. */
  lemma FilterByEmptyTerm(bangs: seq<BangData>)
    ensures Filter(MatchesTerm, [], bangs) == bangs
  {
    forall b | b in bangs ensures MatchesTerm(b, []) {
      MatchesEmptyTerm(b);
    }
    FilterAll(MatchesTerm, [], bangs);
  }

  /** The first `limit` entries of `bangs` that match `term`. */
  function SearchBangs(bangs: seq<BangData>, term: string, limit: nat): (r: seq<BangData>)
    ensures |r| <= limit
    ensures forall b :: b in r ==> b in bangs && MatchesTerm(b, term)
  {
    Take(Filter(MatchesTerm, term, bangs), limit)
  }

  /** What a capped search promises: the result keeps the registry's order,
      holds only matching entries, and when the cap is not reached it holds
      every matching entry; exactly, it is the first `limit` matching
      entries, or all of them when there are fewer. */
  lemma {:induction false} SearchBangsSpec(bangs: seq<BangData>, term: string, limit: nat)
    ensures IsSubsequence(SearchBangs(bangs, term, limit), bangs)
    ensures forall b :: b in SearchBangs(bangs, term, limit) ==> b in bangs && MatchesTerm(b, term)
    ensures |SearchBangs(bangs, term, limit)| <= limit
    ensures |SearchBangs(bangs, term, limit)| < limit ==>
              forall b :: b in bangs && MatchesTerm(b, term) ==> b in SearchBangs(bangs, term, limit)
    ensures var matching := Filter(MatchesTerm, term, bangs);
            var r := SearchBangs(bangs, term, limit);
            |r| == Min(limit, |matching|) && r == matching[..|r|]
  {
    var all := Filter(MatchesTerm, term, bangs);
    var r := SearchBangs(bangs, term, limit);
    PrefixOfSubsequence(all, bangs, |r|);
    forall b | b in r ensures b in bangs && MatchesTerm(b, term) {
      assert b in all;
    }
    if |r| < limit {
      assert r == all;
    }
  }

  const FilteredLimit := 10

  /** `getFilteredBangs`: nothing unless the query starts with `!`; the
      first ten entries when nothing follows the `!`; otherwise the first
      ten entries matching the lower-cased text after the `!`. */
  function GetFilteredBangs(bangs: seq<BangData>, query: string): (r: seq<BangData>)
    ensures !StartsWith(query, "!") ==> r == []
    ensures StartsWith(query, "!") ==> r == SearchBangs(bangs, Lower(query[1..]), FilteredLimit)
    ensures query == "!" ==> r == Take(bangs, FilteredLimit)
  {
    if !StartsWith(query, "!") then []
    else
      var term := Lower(query[1..]);
      if term == [] then
        FilterByEmptyTerm(bangs);
        Take(bangs, FilteredLimit)
      else
        SearchBangs(bangs, term, FilteredLimit)
  }

  /** The triggers `getPopularBangs` selects. */
  const PopularTriggers: seq<string> :=
    ["g", "w", "yt", "gh", "so", "reddit", "twitter", "chatgpt",
     "amazon", "netflix", "spotify", "maps", "translate", "weather"]

  predicate IsPopular(b: BangData, triggers: seq<string>) {
    b.trigger in triggers
  }

  /** `getPopularBangs`: the entries whose trigger is, with exact case, in
      the popular list; in registry order, not in the list's order. */
  function GetPopularBangs(bangs: seq<BangData>): (r: seq<BangData>)
    ensures forall b :: b in r <==> b in bangs && b.trigger in PopularTriggers
    ensures IsSubsequence(r, bangs)
  {
    Filter(IsPopular, PopularTriggers, bangs)
  }

  /** The popular subset follows the registry's order: a registry listing
      Stack Overflow before Google yields them in that order. */
  lemma PopularKeepsRegistryOrder(so: BangData, g: BangData)
    requires so.trigger == "so" && g.trigger == "g"
    ensures GetPopularBangs([so, g]) == [so, g]
  {
    assert IsPopular(so, PopularTriggers) && IsPopular(g, PopularTriggers);
    FilterAll(IsPopular, PopularTriggers, [so, g]);
  }

  /** Popularity compares triggers with their case: `G` is not popular. */
  lemma PopularIsCaseSensitive(b: BangData)
    requires b.trigger == "G"
    ensures GetPopularBangs([b]) == []
  {
    assert !IsPopular(b, PopularTriggers) by {
      assert b.trigger[0] != PopularTriggers[0][0];
    }
  }

  /** What the browser's storage holds under `cached-bangs` when the
      registry loads: nothing (or the empty string), text that does not
      decode to a list of records, or a list of records. */
  datatype CachedValue = NoEntry | Unreadable | Records(raws: seq<RawBang>)

  /** The storage operations of a load, with the calls that throw. */
  datatype Storage = Storage(readThrows: bool, cached: CachedValue,
                             cacheWriteThrows: bool, stampWriteThrows: bool)

  /** `loadBangs`: the successive values of the registry, starting from
      the empty registry before loading. A readable cache is installed
      first; the shipped data set is always installed next unless reading
      the storage throws; any storage exception ends with the fallback set.
      The sequence describes the load that runs when the page mounts, so it
      starts from the empty registry: `refreshBangs` repeats the same steps
      from whatever registry is current, and React may batch the
      intermediate values into a single render. */
  function LoadBangs(env: Storage): (states: seq<seq<BangData>>)
    ensures |states| >= 2 && states[0] == []
    ensures env.readThrows ==> states == [[], DefaultBangs()]
    ensures !env.readThrows ==>
              states[|states| - 1] == (if env.cacheWriteThrows || env.stampWriteThrows
                                       then DefaultBangs() else Transform(EmbeddedBangs()))
    ensures env.cached.Records? && !env.readThrows ==> states[1] == Transform(env.cached.raws)
    ensures !env.cached.Records? && !env.readThrows ==> states[1] == Transform(EmbeddedBangs())
    ensures !env.readThrows ==>
              var k := if env.cached.Records? then 2 else 1;
              && |states| == k + 1 + (if env.cacheWriteThrows || env.stampWriteThrows then 1 else 0)
              && states[k] == Transform(EmbeddedBangs())
  {
    if env.readThrows then [[], DefaultBangs()]
    else
      var fromCache := if env.cached.Records? then [Transform(env.cached.raws)] else [];
      var installed := [[]] + fromCache + [Transform(EmbeddedBangs())];
      if env.cacheWriteThrows || env.stampWriteThrows then installed + [DefaultBangs()]
      else installed
  }

  /** The registry a load settles on. */
  function Loaded(env: Storage): (r: seq<BangData>)
    ensures r == DefaultBangs() || r == Transform(EmbeddedBangs())
  {
    var states := LoadBangs(env);
    states[|states| - 1]
  }

  /** The settled registry never depends on what the cache held, and it is
      the shipped set exactly when no storage call throws. */
  lemma LoadedIgnoresCache(env: Storage, other: CachedValue)
    ensures Loaded(env) == Loaded(env.(cached := other))
    ensures Loaded(env) == (if env.readThrows || env.cacheWriteThrows || env.stampWriteThrows
                            then DefaultBangs() else Transform(EmbeddedBangs()))
  {
  }
}

=== FILE: scenarios.dfy ===
/** Whole submissions against the registries the application installs:
    a known bang, an unknown bang, and plain text. */
module Scenarios {
  import opened Optional
  import opened Text
  import opened Uri
  import opened Catalog
  import opened Registry
  import opened CatalogFacts
  import opened Query
  import opened History
  import opened Search

  const GoogleTemplate := Url(GoogleSearchPrefix, "")

  /** Google's template puts the term at the end of the search prefix. */
  lemma GoogleTemplateFill(term: string)
    ensures ReplaceFirst(GoogleTemplate, Placeholder, term) == GoogleSearchPrefix + term
  {
    assert GoogleTemplate == GoogleSearchPrefix + Placeholder + [];
    assert Placeholder[0] !in GoogleSearchPrefix;
    ReplaceAfterPlainPrefix(GoogleSearchPrefix, Placeholder, [], term);
  }

  /** Submitting `!trigger term` for a registered trigger opens its bang
      with the term and clears the search box. */
  lemma {:induction false} KnownBangSubmission(bangs: seq<BangData>, history: seq<string>,
                                               trigger: string, term: string, b: BangData)
    requires trigger != [] && IsWord(trigger) && SingleLine(term)
    requires term != [] ==> !IsSpace(term[0])
    requires GetBangByTrigger(bangs, trigger) == Some(b)
    ensures var q := Recompose(trigger, term);
            HandleSearch(bangs, history, q, None) ==
              SearchOutcome(OpenInNewTab(BangUrl(b, term)), AddToHistory(history, q), [])
  {
    var q := Recompose(trigger, term);
    RecomposeRoundTrip(trigger, term);
    TrimStartKeeps(term);
    assert ParseBang(q) == Some(BangMatch(trigger, term));
    assert q[0] == '!';
    NotBlank(q);
    SubmissionOutcome(bangs, history, q);
  }

  /** Submitting `!trigger term` for an unregistered trigger searches
      Google for the whole text and keeps it in the search box. */
  lemma {:induction false} UnknownBangSubmission(bangs: seq<BangData>, history: seq<string>,
                                                 trigger: string, term: string)
    requires trigger != [] && IsWord(trigger) && SingleLine(term)
    requires GetBangByTrigger(bangs, trigger).None?
    ensures var q := Recompose(trigger, term);
            HandleSearch(bangs, history, q, None) ==
              SearchOutcome(ReplacePage(GoogleSearchPrefix + Encode(q)), AddToHistory(history, q), q)
  {
    var q := Recompose(trigger, term);
    RecomposeRoundTrip(trigger, term);
    assert q[0] == '!';
    NotBlank(q);
    SubmissionOutcome(bangs, history, q);
  }

  /** The pieces of `!g openai`. */
  lemma GoogleOpenaiParts()
    ensures "!g openai" == Recompose("g", "openai")
    ensures IsWord("g") && SingleLine("openai") && !IsSpace("openai"[0])
  {
  }

  lemma OpenaiEncodesToItself()
    ensures Encode("openai") == "openai"
  {
    assert forall i :: 0 <= i < |"openai"| ==> IsUnreserved("openai"[i]);
  }

  /** In any registry whose `g` entry carries Google's template, `!g openai`
      opens the Google search for `openai` and clears the search box. */
  lemma GoogleBangOpensSearch(bangs: seq<BangData>, history: seq<string>)
    requires GetBangByTrigger(bangs, "g").Some?
    requires GetBangByTrigger(bangs, "g").value.url == GoogleTemplate
    ensures HandleSearch(bangs, history, "!g openai", None) ==
              SearchOutcome(OpenInNewTab(GoogleSearchPrefix + "openai"),
                            AddToHistory(history, "!g openai"), [])
  {
    var b := GetBangByTrigger(bangs, "g").value;
    GoogleOpenaiParts();
    KnownBangSubmission(bangs, history, "g", "openai", b);
    OpenaiEncodesToItself();
    GoogleTemplateFill("openai");
    assert BangUrl(b, "openai") == GoogleSearchPrefix + "openai";
  }

  /** The shipped `g` entry carries Google's template. */
  lemma ShippedGoogleTemplate()
    ensures Transform(EmbeddedBangs())[18].url == GoogleTemplate
  {
    var raw := EmbeddedEntry(18);
    assert raw.u == GoogleTemplate;
    assert EmbeddedBangs()[18] == raw;
  }

  /** `!g openai` on the shipped registry. */
  lemma ShippedGoogleBang(history: seq<string>)
    ensures HandleSearch(Transform(EmbeddedBangs()), history, "!g openai", None) ==
              SearchOutcome(OpenInNewTab(GoogleSearchPrefix + "openai"),
                            AddToHistory(history, "!g openai"), [])
  {
    EmbeddedLookupGoogle();
    ShippedGoogleTemplate();
    GoogleBangOpensSearch(Transform(EmbeddedBangs()), history);
  }

  /** `!g openai` on the fallback registry installed when loading fails. */
  lemma DefaultGoogleBang(history: seq<string>)
    ensures HandleSearch(DefaultBangs(), history, "!g openai", None) ==
              SearchOutcome(OpenInNewTab(GoogleSearchPrefix + "openai"),
                            AddToHistory(history, "!g openai"), [])
  {
    var d := DefaultBangs();
    assert d == [d[0]] + d[1..];
    assert d[0] == DefaultEntry(0);
    LookupFindsFirst(d[0], d[1..], "g");
    GoogleBangOpensSearch(d, history);
  }

  /** An unregistered bang is searched on Google as typed, bang included;
      the text stays in the search box and is recorded. */
  lemma UnknownBangSearchesGoogle(history: seq<string>)
    ensures var q := "!zzznotreal test";
            HandleSearch(Transform(EmbeddedBangs()), history, q, None) ==
              SearchOutcome(ReplacePage(GoogleSearchPrefix + Encode(q)), AddToHistory(history, q), q)
  {
    assert "!zzznotreal test" == Recompose("zzznotreal", "test");
    assert IsWord("zzznotreal") && SingleLine("test");
    EmbeddedLookupUnknown();
    UnknownBangSubmission(Transform(EmbeddedBangs()), history, "zzznotreal", "test");
  }

  /** Text without a leading bang is searched on Google. */
  lemma PlainTextSearchesGoogle(bangs: seq<BangData>, history: seq<string>)
    ensures var q := "hello world";
            HandleSearch(bangs, history, q, None) ==
              SearchOutcome(ReplacePage(GoogleSearchPrefix + Encode(q)), AddToHistory(history, q), q)
  {
    NotBlank("hello world");
  }
}

=== FILE: search.dfy ===
/** Submitting a search: the history update, the bang resolution and the
    navigation the page performs, returned as an action value instead of
    being carried out. Also the bang chips offered while typing. */
module Search {
  import opened Optional
  import opened Text
  import opened Seqs
  import opened Uri
  import opened Catalog
  import opened Registry
  import opened Query
  import opened History

  /** The navigation a submission performs: none, `window.open(url, "_blank")`,
      or `window.location.href = url`. */
  datatype Action = NoAction | OpenInNewTab(url: string) | ReplacePage(url: string)

  /** The action, the history afterwards, and the text left in the search box. */
  datatype SearchOutcome = SearchOutcome(action: Action, history: seq<string>, query: string)

  const GoogleSearchPrefix := "https://www.google.com/search?q="

  /** `searchQuery || query`: an absent or empty argument falls back to
      the text in the search box. */
  function FinalQuery(query: string, searchQuery: Option<string>): (r: string)
    ensures r == query || Some(r) == searchQuery
    ensures searchQuery.Some? && searchQuery.value != [] ==> r == searchQuery.value
    ensures searchQuery.None? || searchQuery.value == [] ==> r == query
  {
    if searchQuery.Some? && searchQuery.value != [] then searchQuery.value else query
  }

  /** The URL a bang opens: its template with the first `{{{s}}}` replaced
      by the percent-encoded term. */
  function BangUrl(b: BangData, term: string): (r: string)
    ensures !Contains(b.url, Placeholder) ==> r == b.url
    ensures forall i: nat :: IsFirstOccurrence(b.url, Placeholder, i) ==>
              r == b.url[..i] + Encode(term) + b.url[i + |Placeholder|..]
  {
    ReplaceFirst(b.url, Placeholder, Encode(term))
  }

  /** `handleSearch`. A blank submission does nothing. Any other is
      recorded in the history first. A text starting with a registered
      bang opens that bang's URL in a new tab and clears the search box;
      anything else, including an unregistered bang, replaces the page
      with a Google search for the whole text, which stays in the box. */
  function HandleSearch(bangs: seq<BangData>, history: seq<string>, query: string,
                        searchQuery: Option<string>): (r: SearchOutcome)
    ensures var q := FinalQuery(query, searchQuery);
            Trim(q) == [] ==> r == SearchOutcome(NoAction, history, query)
    ensures var q := FinalQuery(query, searchQuery);
            r.action.NoAction? <==> Trim(q) == []
    ensures var q := FinalQuery(query, searchQuery);
            Trim(q) != [] ==> r.history == AddToHistory(history, q) && r.history[0] == q
    ensures var q := FinalQuery(query, searchQuery);
            r.action.OpenInNewTab? <==>
              Trim(q) != [] && ParseBang(q).Some? && GetBangByTrigger(bangs, ParseBang(q).value.trigger).Some?
    ensures var q := FinalQuery(query, searchQuery);
            r.action.OpenInNewTab? ==>
              r.query == [] && r.action.url == BangUrl(GetBangByTrigger(bangs, ParseBang(q).value.trigger).value,
                                                     ParseBang(q).value.term)
    ensures var q := FinalQuery(query, searchQuery);
            r.action.ReplacePage? ==> r.query == query && r.action.url == GoogleSearchPrefix + Encode(q)
  {
    var q := FinalQuery(query, searchQuery);
    if Trim(q) == [] then SearchOutcome(NoAction, history, query)
    else
      var recorded := AddToHistory(history, q);
      match ParseBang(q)
      case Some(m) =>
        (match GetBangByTrigger(bangs, m.trigger)
         case Some(b) => SearchOutcome(OpenInNewTab(BangUrl(b, m.term)), recorded, [])
         case None => SearchOutcome(ReplacePage(GoogleSearchPrefix + Encode(q)), recorded, query))
      case None => SearchOutcome(ReplacePage(GoogleSearchPrefix + Encode(q)), recorded, query)
  }

  /** The outcome of a non-blank submission, by the branch it takes. */
  lemma SubmissionOutcome(bangs: seq<BangData>, history: seq<string>, q: string)
    requires Trim(q) != []
    ensures ParseBang(q).Some? && GetBangByTrigger(bangs, ParseBang(q).value.trigger).Some? ==>
              HandleSearch(bangs, history, q, None) ==
                SearchOutcome(OpenInNewTab(BangUrl(GetBangByTrigger(bangs, ParseBang(q).value.trigger).value,
                                                   ParseBang(q).value.term)),
                              AddToHistory(history, q), [])
    ensures ParseBang(q).None? || GetBangByTrigger(bangs, ParseBang(q).value.trigger).None? ==>
              HandleSearch(bangs, history, q, None) ==
                SearchOutcome(ReplacePage(GoogleSearchPrefix + Encode(q)), AddToHistory(history, q), q)
  {
    assert FinalQuery(q, None) == q;
  }

  /** The encoded term holds no `$`, so the template replacement inserts it
      literally; it decodes back to the term. */
  lemma EncodedTermIsLiteral(term: string)
    ensures '$' !in Encode(term)
    ensures Decode(Encode(term)) == Some(term)
  {
    DecodeEncode(term);
  }

  /** A bang's URL is its template with the encoded term in place of the
      first placeholder, and the template itself when it has none. */
  lemma BangUrlShape(b: BangData, term: string, i: nat)
    ensures !Contains(b.url, Placeholder) ==> BangUrl(b, term) == b.url
    ensures IsFirstOccurrence(b.url, Placeholder, i) ==>
              && BangUrl(b, term) == b.url[..i] + Encode(term) + b.url[i + |Placeholder|..]
              && Decode(BangUrl(b, term)[i..i + |Encode(term)|]) == Some(term)
  {
    if IsFirstOccurrence(b.url, Placeholder, i) {
      var u := BangUrl(b, term);
      assert u[i..i + |Encode(term)|] == Encode(term);
      DecodeEncode(term);
    }
  }

  /** For a template written around its placeholder with no `{` before it,
      the term's encoding takes the placeholder's place. */
  lemma BangUrlOfTemplate(b: BangData, term: string, before: string, after: string)
    requires b.url == Url(before, after) && '{' !in before
    ensures BangUrl(b, term) == before + Encode(term) + after
  {
    ReplaceAfterPlainPrefix(before, Placeholder, after, Encode(term));
  }

  /** The Google URL of a default search carries the whole submitted text,
      recoverable by decoding. */
  lemma DefaultSearchCarriesWholeText(bangs: seq<BangData>, history: seq<string>, query: string,
                                      searchQuery: Option<string>)
    requires HandleSearch(bangs, history, query, searchQuery).action.ReplacePage?
    ensures var url := HandleSearch(bangs, history, query, searchQuery).action.url;
            StartsWith(url, GoogleSearchPrefix)
            && Decode(url[|GoogleSearchPrefix|..]) == Some(FinalQuery(query, searchQuery))
  {
    var q := FinalQuery(query, searchQuery);
    var url := GoogleSearchPrefix + Encode(q);
    assert url[..|GoogleSearchPrefix|] == GoogleSearchPrefix;
    assert url[|GoogleSearchPrefix|..] == Encode(q);
    DecodeEncode(q);
  }

  /** White space only is a blank submission: nothing happens. */
  lemma BlankSubmissionIsIgnored(bangs: seq<BangData>, history: seq<string>, query: string)
    requires IsBlank(query)
    ensures HandleSearch(bangs, history, query, None) == SearchOutcome(NoAction, history, query)
  {
    TrimEmptyIffBlank(query);
  }

  /** A suggestion clicked with an empty text submits the search box instead. */
  lemma EmptyArgumentFallsBack(bangs: seq<BangData>, history: seq<string>, query: string)
    ensures HandleSearch(bangs, history, query, Some("")) == HandleSearch(bangs, history, query, None)
  {
  }

  /** Texts that cannot carry a bang: a lone `!`, `!` followed by a
      non-word character, and a bang that does not start the text. */
  lemma NotBangs()
    ensures ParseBang("!") == None
    ensures ParseBang("!-x") == None
    ensures ParseBang("a !g") == None
  {
  }

  /** `handleBangClick`: the text put in the search box. */
  function HandleBangClick(bang: string): (r: string)
    ensures |r| == |bang| + 1 && r[..|bang|] == bang && r[|bang|] == ' '
  {
    bang + " "
  }

  /** `!trigger`, the text a chip or a bang suggestion hands over. */
  function ChipPayload(b: BangData): (r: string)
    ensures |r| == |b.trigger| + 1 && r[0] == '!' && r[1..] == b.trigger
  {
    "!" + b.trigger
  }

  /** After a chip click the search box shows the bang's chip with an empty
      input, and submitting it at once opens the bang with an empty term. */
  lemma ChipClickSelectsBang(b: BangData)
    requires b.trigger != [] && IsWord(b.trigger)
    ensures var q := HandleBangClick(ChipPayload(b));
            && ParseBang(q) == Some(BangMatch(b.trigger, []))
            && MatchInput(q).Some? && MatchInput(q).value.trigger == b.trigger
            && InputValue(MatchInput(q).value) == []
  {
    var q := HandleBangClick(ChipPayload(b));
    assert q == Recompose(b.trigger, []);
    RecomposeRoundTrip(b.trigger, []);
  }

  const RelevantLimit := 12

  /** `searchQuery.startsWith("!") ? searchQuery.slice(1) : searchQuery`. */
  function StripLeadingBang(q: string): (r: string)
    ensures StartsWith(q, "!") ==> "!" + r == q
    ensures !StartsWith(q, "!") ==> r == q
  {
    if StartsWith(q, "!") then q[1..] else q
  }

  /** `getRelevantBangs`: nothing for blank input; otherwise the first twelve
      entries matching the lower-cased input with one leading `!` removed
      (and no trimming). */
  function GetRelevantBangs(bangs: seq<BangData>, q: string): (r: seq<BangData>)
    ensures Trim(q) == [] ==> r == []
    ensures Trim(q) != [] ==> r == SearchBangs(bangs, Lower(StripLeadingBang(q)), RelevantLimit)
  {
    if Trim(q) == [] then [] else SearchBangs(bangs, Lower(StripLeadingBang(q)), RelevantLimit)
  }

  /** A lone `!` offers the first twelve bangs of the registry. */
  lemma RelevantForLoneBang(bangs: seq<BangData>)
    ensures GetRelevantBangs(bangs, "!") == Take(bangs, RelevantLimit)
  {
    NotBlank("!");
    assert StripLeadingBang("!") == [];
    FilterByEmptyTerm(bangs);
  }

  /** The relevant bangs are those `!`-prefixed filtering would find, only
      more of them: the filter's ten are the first ten of these twelve. */
  lemma FilteredAreFirstRelevant(bangs: seq<BangData>, q: string)
    requires StartsWith(q, "!")
    ensures GetFilteredBangs(bangs, q) == Take(GetRelevantBangs(bangs, q), FilteredLimit)
  {
    NotBlank(q);
  }

  /** Typing the trigger with or without the `!` gives the same chips. */
  lemma RelevantWithOrWithoutBang(bangs: seq<BangData>, x: string)
    requires Trim(x) != [] && !StartsWith(x, "!")
    ensures GetRelevantBangs(bangs, "!" + x) == GetRelevantBangs(bangs, x)
  {
    var q := "!" + x;
    NotBlank(q);
    assert q[1..] == x;
    assert StripLeadingBang(q) == x;
  }

  /** What `renderSearchInput` shows: the plain input holding the query, or
      the chip of a registered bang with an input holding the text after it. */
  datatype InputView = Plain(text: string) | Chip(bang: BangData, value: string)

  /** `renderSearchInput`: a chip exactly when the stricter input pattern
      matches and its trigger is registered. */
  function RenderSearchInput(bangs: seq<BangData>, query: string): (r: InputView)
    ensures r.Plain? ==> r.text == query
    ensures r.Chip? <==> MatchInput(query).Some? && GetBangByTrigger(bangs, MatchInput(query).value.trigger).Some?
    ensures r.Chip? ==> r.bang == GetBangByTrigger(bangs, MatchInput(query).value.trigger).value
    ensures r.Chip? ==> r.value == InputValue(MatchInput(query).value)
  {
    match MatchInput(query)
    case None => Plain(query)
    case Some(m) =>
      match GetBangByTrigger(bangs, m.trigger)
      case None => Plain(query)
      case Some(b) => Chip(b, InputValue(m))
  }

  /** Whenever a chip is shown, pressing Enter opens that chip's bang with
      the text its input shows. */
  lemma ChipShownMeansBangOpens(bangs: seq<BangData>, history: seq<string>, query: string)
    requires RenderSearchInput(bangs, query).Chip?
    ensures var v := RenderSearchInput(bangs, query);
            HandleSearch(bangs, history, query, None).action == OpenInNewTab(BangUrl(v.bang, v.value))
  {
    DisplayAgreesWithSubmit(query);
    assert query[0] == '!';
    NotBlank(query);
  }

  /** Typing a single line into a chip's input keeps the chip, and the
      input then shows what was typed, without its leading white space. */
  lemma EditingKeepsChip(bangs: seq<BangData>, query: string, typed: string)
    requires RenderSearchInput(bangs, query).Chip?
    requires SingleLine(typed)
    ensures var trigger := MatchInput(query).value.trigger;
            RenderSearchInput(bangs, Recompose(trigger, typed)) ==
              Chip(RenderSearchInput(bangs, query).bang, TrimStart(typed))
  {
    var trigger := MatchInput(query).value.trigger;
    RecomposeRoundTrip(trigger, typed);
  }
}

=== FILE: seqs.dfy ===
/** Order-preserving filtering and prefix truncation: the `Array.prototype.filter`
    and `slice(0, n)` that every list in the system goes through. */
module Seqs {

  function Min(a: int, b: int): int {
    if a <= b then a else b
  }

  /** `s.slice(0, n)`. */
  function Take<T>(s: seq<T>, n: nat): (r: seq<T>)
    ensures |r| == Min(n, |s|)
    ensures r == s[..|r|]
  {
    if n <= |s| then s[..n] else s
  }

  /** `a` can be obtained from `b` by deleting elements: `a` keeps the
      relative order of `b`. */
  ghost predicate IsSubsequence<T>(a: seq<T>, b: seq<T>)
    decreases |b|
  {
    if a == [] then true
    else if b == [] then false
    else (a[0] == b[0] && IsSubsequence(a[1..], b[1..])) || IsSubsequence(a, b[1..])
  }

  /** `s.filter(x => p(x, arg))`: the elements of `s` that satisfy `p`,
      in the order of `s`. */
  function Filter<T(!new), A>(p: (T, A) -> bool, arg: A, s: seq<T>): (r: seq<T>)
    ensures |r| <= |s|
    ensures forall x :: x in r <==> x in s && p(x, arg)
    ensures IsSubsequence(r, s)
  {
    if s == [] then []
    else if p(s[0], arg) then
      [s[0]] + Filter(p, arg, s[1..])
    else
      Filter(p, arg, s[1..])
  }

  /** Filtering distributes over concatenation. */
  lemma {:induction false} FilterAppend<T(!new), A>(p: (T, A) -> bool, arg: A, a: seq<T>, b: seq<T>)
    ensures Filter(p, arg, a + b) == Filter(p, arg, a) + Filter(p, arg, b)
    decreases |a|
  {
    if a == [] {
      assert a + b == b;
    } else {
      var ab := a + b;
      assert ab != [] && ab[0] == a[0];
      assert ab[1..] == a[1..] + b;
      FilterAppend(p, arg, a[1..], b);
    }
  }

  /** Filtering keeps every copy of a passing element and no copy of a
      failing one. */
  lemma {:induction false} FilterMultiplicity<T(!new), A>(p: (T, A) -> bool, arg: A, s: seq<T>, x: T)
    ensures multiset(Filter(p, arg, s))[x] == if p(x, arg) then multiset(s)[x] else 0
  {
    if s != [] {
      assert s == [s[0]] + s[1..];
      FilterMultiplicity(p, arg, s[1..], x);
    }
  }

  /** Filtering keeps everything when every element passes. */
  lemma {:induction false} FilterAll<T(!new), A>(p: (T, A) -> bool, arg: A, s: seq<T>)
    requires forall x :: x in s ==> p(x, arg)
    ensures Filter(p, arg, s) == s
  {
    if s != [] {
      assert s == [s[0]] + s[1..];
      FilterAll(p, arg, s[1..]);
    }
  }

  /** Filtering keeps nothing when no element passes. */
  lemma {:induction false} FilterNone<T(!new), A>(p: (T, A) -> bool, arg: A, s: seq<T>)
    requires forall i :: 0 <= i < |s| ==> !p(s[i], arg)
    ensures Filter(p, arg, s) == []
  {
    if s != [] {
      FilterNone(p, arg, s[1..]);
    }
  }

  lemma {:induction false} SubsequenceRefl<T>(s: seq<T>)
    ensures IsSubsequence(s, s)
  {
    if s != [] {
      SubsequenceRefl(s[1..]);
    }
  }

  /** A prefix of a subsequence of `b` is a subsequence of `b`. */
  lemma {:induction false} PrefixOfSubsequence<T>(a: seq<T>, b: seq<T>, n: nat)
    requires IsSubsequence(a, b)
    requires n <= |a|
    ensures IsSubsequence(a[..n], b)
    decreases |b|
  {
    if n == 0 || a == [] {
    } else if a[0] == b[0] && IsSubsequence(a[1..], b[1..]) {
      PrefixOfSubsequence(a[1..], b[1..], n - 1);
      assert a[..n][1..] == a[1..][..n - 1];
    } else {
      PrefixOfSubsequence(a, b[1..], n);
    }
  }

  /** Every element of a subsequence occurs in the original. */
  lemma {:induction false} SubsequenceMembers<T>(a: seq<T>, b: seq<T>)
    requires IsSubsequence(a, b)
    ensures forall x :: x in a ==> x in b
    decreases |b|
  {
    if a != [] {
      if a[0] == b[0] && IsSubsequence(a[1..], b[1..]) {
        SubsequenceMembers(a[1..], b[1..]);
        assert a == [a[0]] + a[1..];
      } else {
        SubsequenceMembers(a, b[1..]);
      }
      assert b == [b[0]] + b[1..];
    }
  }

  /** Pairwise-distinct elements. */
  ghost predicate NoDuplicates<T>(s: seq<T>) {
    forall i, j :: 0 <= i < j < |s| ==> s[i] != s[j]
  }

  /** A subsequence of a duplicate-free sequence is duplicate-free. */
  lemma {:induction false} SubsequenceNoDuplicates<T>(a: seq<T>, b: seq<T>)
    requires IsSubsequence(a, b)
    requires NoDuplicates(b)
    ensures NoDuplicates(a)
    decreases |b|
  {
    if a != [] {
      assert NoDuplicates(b[1..]) by {
        forall i, j | 0 <= i < j < |b[1..]| ensures b[1..][i] != b[1..][j] {
          assert b[1..][i] == b[i + 1] && b[1..][j] == b[j + 1];
        }
      }
      if a[0] == b[0] && IsSubsequence(a[1..], b[1..]) {
        SubsequenceNoDuplicates(a[1..], b[1..]);
        SubsequenceMembers(a[1..], b[1..]);
        forall j | 0 < j < |a| ensures a[0] != a[j] {
          assert a[j] == a[1..][j - 1];
          assert a[j] in b[1..];
          var k :| 0 <= k < |b[1..]| && b[1..][k] == a[j];
          assert b[k + 1] == a[j];
        }
      } else {
        SubsequenceNoDuplicates(a, b[1..]);
      }
    }
  }

  /** Keys that increase along a listing `order` increase between any two
      positions of the listing. */
  lemma {:induction false} IncreasingAlong(n: nat, key: nat -> int, order: nat -> nat, a: nat, b: nat)
    requires forall x :: 0 <= x < n - 1 ==> key(order(x)) < key(order(x + 1))
    requires a < b < n
    ensures key(order(a)) < key(order(b))
    decreases b - a
  {
    if a + 1 < b {
      IncreasingAlong(n, key, order, a + 1, b);
    }
  }

  /** If some listing `order` of the positions below `n` (with inverse
      `pos`) visits the keys in strictly increasing order, the keys of
      those positions are pairwise distinct. */
  lemma DistinctAlongOrder(n: nat, key: nat -> int, order: nat -> nat, pos: nat -> nat)
    requires forall i :: 0 <= i < n ==> pos(i) < n && order(pos(i)) == i
    requires forall x :: 0 <= x < n - 1 ==> key(order(x)) < key(order(x + 1))
    ensures forall i, j :: 0 <= i < j < n ==> key(i) != key(j)
  {
    forall i, j | 0 <= i < j < n ensures key(i) != key(j) {
      if pos(i) < pos(j) {
        IncreasingAlong(n, key, order, pos(i), pos(j));
      } else {
        IncreasingAlong(n, key, order, pos(j), pos(i));
      }
    }
  }
}

=== FILE: suggestions.dfy ===
/** Search suggestions: which source is consulted, in what order, and how
    the list shown is cut down. Network responses are parameters: each
    source either throws, answers with something unusable, or answers with
    a usable list. */
module Suggestions {
  import opened Optional
  import opened Text
  import opened Seqs

  const MaxSuggestions := 8

  predicate DiffersIgnoringCase(s: string, query: string) {
    Lower(s) != Lower(query)
  }

  /** The filter and cap `fetchSuggestions` applies to whatever list it
      obtained: drop every entry equal to the query up to case, keep eight. */
  function ProcessResults(list: seq<string>, query: string): (r: seq<string>)
    ensures |r| <= MaxSuggestions
    ensures forall s :: s in r ==> s in list && Lower(s) != Lower(query)
  {
    Take(Filter(DiffersIgnoringCase, query, list), MaxSuggestions)
  }

  /** The processed list keeps the source's order, holds at most eight
      entries, never repeats the query, and loses no other entry while
      there is room; exactly, it is the first eight entries that differ
      from the query, or all of them when there are fewer. */
  lemma ProcessResultsSpec(list: seq<string>, query: string)
    ensures |ProcessResults(list, query)| <= MaxSuggestions
    ensures IsSubsequence(ProcessResults(list, query), list)
    ensures forall s :: s in ProcessResults(list, query) ==> s in list && Lower(s) != Lower(query)
    ensures |ProcessResults(list, query)| < MaxSuggestions ==>
              forall s :: s in list && Lower(s) != Lower(query) ==> s in ProcessResults(list, query)
    ensures var kept := Filter(DiffersIgnoringCase, query, list);
            var r := ProcessResults(list, query);
            |r| == Min(MaxSuggestions, |kept|) && r == kept[..|r|]
  {
    var all := Filter(DiffersIgnoringCase, query, list);
    var r := ProcessResults(list, query);
    PrefixOfSubsequence(all, list, |r|);
    forall s | s in r ensures s in list && Lower(s) != Lower(query) {
      assert s in all;
    }
    if |r| < MaxSuggestions {
      assert r == all;
    }
  }

  /** What one network source gave back: the fetch (or decoding its body)
      threw, the response was not OK or not of the expected shape, or it
      held a usable value. */
  datatype Response<T> = Threw | Unusable | Usable(value: T)

  /** An entry of a Datamuse answer: `null`, or an object whose `word` and
      `suggestion` properties may be absent. */
  datatype DatamuseItem = NullItem | Item(word: Option<string>, suggestion: Option<string>)

  /** `item.word || item.suggestion || ''` for an object entry: the first
      non-empty of the two properties, or the empty string. */
  function ItemText(word: Option<string>, suggestion: Option<string>): (r: string)
    ensures r != [] ==> Some(r) == word || Some(r) == suggestion
    ensures r == [] <==> (word.GetOr([]) == [] && suggestion.GetOr([]) == [])
    ensures word.GetOr([]) != [] ==> r == word.value
  {
    if word.GetOr([]) != [] then word.GetOr([])
    else suggestion.GetOr([])
  }

  /** The map and `filter(Boolean)` over a Datamuse answer, or `None` when
      an entry is `null` and reading its property throws. */
  function DatamuseWords(items: seq<DatamuseItem>): (r: Option<seq<string>>)
    ensures r.None? <==> NullItem in items
    ensures r.Some? ==> forall w :: w in r.value ==> w != []
    ensures r.Some? ==> |r.value| <= |items|
    decreases |items|
  {
    if items == [] then Some([])
    else match DatamuseWords(items[1..])
      case None => None
      case Some(rest) =>
        match items[0]
        case NullItem => None
        case Item(w, s) =>
          var t := ItemText(w, s);
          if t == [] then Some(rest) else Some([t] + rest)
  }

  /** The text an entry contributes before empty texts are dropped; a
      `null` entry has none. */
  function EntryText(item: DatamuseItem): string {
    match item
    case NullItem => []
    case Item(w, s) => ItemText(w, s)
  }

  predicate NotEqual(s: string, t: string) {
    s != t
  }

  /** The words are exactly the non-empty entry texts, in entry order:
      `items.map(...)` followed by `filter(Boolean)`. */
  lemma {:induction false} DatamuseWordsExact(items: seq<DatamuseItem>)
    requires DatamuseWords(items).Some?
    ensures DatamuseWords(items).value ==
              Filter(NotEqual, [], seq(|items|, i requires 0 <= i < |items| => EntryText(items[i])))
    decreases |items|
  {
    var texts := seq(|items|, i requires 0 <= i < |items| => EntryText(items[i]));
    if items != [] {
      var rest := seq(|items[1..]|, i requires 0 <= i < |items[1..]| => EntryText(items[1..][i]));
      assert texts == [texts[0]] + rest;
      DatamuseWordsExact(items[1..]);
    }
  }

  /** Each object entry with a non-empty word or suggestion contributes it. */
  lemma {:induction false} DatamuseWordsComplete(items: seq<DatamuseItem>, i: nat)
    requires i < |items| && items[i].Item?
    requires DatamuseWords(items).Some?
    requires ItemText(items[i].word, items[i].suggestion) != []
    ensures ItemText(items[i].word, items[i].suggestion) in DatamuseWords(items).value
    decreases |items|
  {
    if i > 0 {
      assert items[1..][i - 1] == items[i];
      DatamuseWordsComplete(items[1..], i - 1);
    }
  }

  /** The query with each suggestion template, in the order listed. */
  function Templates(query: string): seq<string> {
    [query + " tutorial", query + " guide", query + " examples", query + " documentation",
     query + " vs", "how to " + query, "what is " + query, query + " alternatives"]
  }

  /** `generateFallbackSuggestions`: nothing for a blank query, otherwise the
      first five templates. */
  function FallbackSuggestions(query: string): (r: seq<string>)
    ensures Trim(query) == [] ==> r == []
    ensures Trim(query) != [] ==> |r| == 5
  {
    if Trim(query) == [] then [] else Take(Templates(query), 5)
  }

  /** The synthetic suggestions are the query followed by " tutorial",
      " guide", " examples", " documentation" and " vs"; the "how to",
      "what is" and "alternatives" templates are never used. */
  lemma FallbackSuggestionsExact(query: string)
    requires Trim(query) != []
    ensures FallbackSuggestions(query) ==
              [query + " tutorial", query + " guide", query + " examples", query + " documentation", query + " vs"]
    ensures "how to " + query !in FallbackSuggestions(query)
  {
    var r := FallbackSuggestions(query);
    forall i | 0 <= i < 5 ensures |r[i]| != |"how to " + query| {
    }
  }

  /** The sources the suggestion code may consult. */
  datatype Source = Api | Wikipedia | Datamuse

  /** The suggestions obtained and the sources consulted, in order. */
  datatype Fetched = Fetched(list: seq<string>, consulted: seq<Source>)

  /** `fetchDuckDuckGoSuggestions`: Wikipedia's list when usable, else the
      Datamuse words when usable, else the synthetic suggestions; a throw at
      any point ends with the synthetic suggestions. */
  function ClientChain(query: string, wikipedia: Response<seq<string>>,
                       datamuse: Response<seq<DatamuseItem>>): (r: Fetched)
    ensures |r.consulted| >= 1 && r.consulted[0] == Wikipedia
    ensures wikipedia.Usable? ==> r == Fetched(wikipedia.value, [Wikipedia])
    ensures wikipedia.Threw? ==> r == Fetched(FallbackSuggestions(query), [Wikipedia])
    ensures wikipedia.Unusable? ==> r.consulted == [Wikipedia, Datamuse]
    ensures wikipedia.Unusable? && datamuse.Usable? && DatamuseWords(datamuse.value).Some? ==>
              r.list == DatamuseWords(datamuse.value).value
    ensures wikipedia.Unusable? && (!datamuse.Usable? || DatamuseWords(datamuse.value).None?) ==>
              r.list == FallbackSuggestions(query)
  {
    match wikipedia
    case Usable(list) => Fetched(list, [Wikipedia])
    case Threw => Fetched(FallbackSuggestions(query), [Wikipedia])
    case Unusable =>
      match datamuse
      case Usable(items) =>
        (match DatamuseWords(items)
         case Some(words) => Fetched(words, [Wikipedia, Datamuse])
         case None => Fetched(FallbackSuggestions(query), [Wikipedia, Datamuse]))
      case _ => Fetched(FallbackSuggestions(query), [Wikipedia, Datamuse])
  }

  /** `fetchSuggestions`: nothing and no source for a blank query; a usable
      API list (even an empty one) is taken as it is; an unusable API
      answer falls through to the client chain; a throw from the API
      yields nothing without trying the client sources. Whatever list is
      obtained goes through `ProcessResults`. */
  function FetchSuggestions(query: string, api: Response<seq<string>>, wikipedia: Response<seq<string>>,
                            datamuse: Response<seq<DatamuseItem>>): (r: Fetched)
    ensures Trim(query) == [] ==> r == Fetched([], [])
    ensures Trim(query) != [] ==> |r.consulted| >= 1 && r.consulted[0] == Api
    ensures Trim(query) != [] && api.Threw? ==> r == Fetched([], [Api])
    ensures Trim(query) != [] && api.Usable? ==> r == Fetched(ProcessResults(api.value, query), [Api])
    ensures Trim(query) != [] && api.Unusable? ==>
              var chain := ClientChain(query, wikipedia, datamuse);
              r == Fetched(ProcessResults(chain.list, query), [Api] + chain.consulted)
  {
    if Trim(query) == [] then Fetched([], [])
    else
      match api
      case Threw => Fetched([], [Api])
      case Usable(list) => Fetched(ProcessResults(list, query), [Api])
      case Unusable =>
        var chain := ClientChain(query, wikipedia, datamuse);
        Fetched(ProcessResults(chain.list, query), [Api] + chain.consulted)
  }

  /** The client sources are consulted only after an unusable API answer. */
  lemma ClientSourcesOnlyAfterUnusableApi(query: string, api: Response<seq<string>>,
                                          wikipedia: Response<seq<string>>, datamuse: Response<seq<DatamuseItem>>)
    ensures Wikipedia in FetchSuggestions(query, api, wikipedia, datamuse).consulted
            <==> Trim(query) != [] && api.Unusable?
  {
  }

  /** No synthetic suggestion equals the query up to case: they are all
      longer than it. */
  lemma FallbackSurvivesProcessing(query: string)
    requires Trim(query) != []
    ensures ProcessResults(FallbackSuggestions(query), query) == FallbackSuggestions(query)
  {
    var f := FallbackSuggestions(query);
    forall s | s in f ensures DiffersIgnoringCase(s, query) {
      assert |s| > |query|;
    }
    FilterAll(DiffersIgnoringCase, query, f);
  }

  /** When every remote source fails, the five synthetic suggestions are
      shown, unchanged. */
  lemma AllSourcesFailing(query: string, datamuse: Response<seq<DatamuseItem>>)
    requires Trim(query) != []
    requires !datamuse.Usable?
    ensures FetchSuggestions(query, Unusable, Unusable, datamuse) ==
              Fetched(FallbackSuggestions(query), [Api, Wikipedia, Datamuse])
  {
    FallbackSurvivesProcessing(query);
  }

  /** Whatever the sources do, the list shown holds at most eight entries,
      none equal to the query up to case, and the sources are consulted in
      the order API, Wikipedia, Datamuse, each at most once. */
  lemma FetchedListBounded(query: string, api: Response<seq<string>>, wikipedia: Response<seq<string>>,
                           datamuse: Response<seq<DatamuseItem>>)
    ensures var r := FetchSuggestions(query, api, wikipedia, datamuse);
            && |r.list| <= MaxSuggestions
            && (forall s :: s in r.list ==> Lower(s) != Lower(query))
            && r.consulted == [Api, Wikipedia, Datamuse][..|r.consulted|]
  {
    var r := FetchSuggestions(query, api, wikipedia, datamuse);
    if Trim(query) != [] {
      match api
      case Threw =>
      case Usable(list) =>
      case Unusable =>
    }
  }
}

=== FILE: templates.dfy ===
/** Facts about the URL templates of the shipped data set, kept apart from
    the rest so that each literal is examined on its own. */
module Templates {
  import opened Catalog

  /** A template whose halves hold no `{`. */
  predicate Plain(t: (string, string)) {
    '{' !in t.0 && '{' !in t.1
  }

  // One lemma per shipped template, so that the solver examines each
  // literal on its own.

  lemma TemplatePlain0()
    ensures Plain(EmbeddedTemplate(0))
  {
  }

  lemma TemplatePlain1()
    ensures Plain(EmbeddedTemplate(1))
  {
  }

  lemma TemplatePlain2()
    ensures Plain(EmbeddedTemplate(2))
  {
  }

  lemma TemplatePlain3()
    ensures Plain(EmbeddedTemplate(3))
  {
  }

  lemma TemplatePlain4()
    ensures Plain(EmbeddedTemplate(4))
  {
  }

  lemma TemplatePlain5()
    ensures Plain(EmbeddedTemplate(5))
  {
  }

  lemma TemplatePlain6()
    ensures Plain(EmbeddedTemplate(6))
  {
  }

  lemma TemplatePlain7()
    ensures Plain(EmbeddedTemplate(7))
  {
  }

  lemma TemplatePlain8()
    ensures Plain(EmbeddedTemplate(8))
  {
  }

  lemma TemplatePlain9()
    ensures Plain(EmbeddedTemplate(9))
  {
  }

  lemma TemplatePlain10()
    ensures Plain(EmbeddedTemplate(10))
  {
  }

  lemma TemplatePlain11()
    ensures Plain(EmbeddedTemplate(11))
  {
  }

  lemma TemplatePlain12()
    ensures Plain(EmbeddedTemplate(12))
  {
  }

  lemma TemplatePlain13()
    ensures Plain(EmbeddedTemplate(13))
  {
  }

  lemma TemplatePlain14()
    ensures Plain(EmbeddedTemplate(14))
  {
  }

  lemma TemplatePlain15()
    ensures Plain(EmbeddedTemplate(15))
  {
  }

  lemma TemplatePlain16()
    ensures Plain(EmbeddedTemplate(16))
  {
  }

  lemma TemplatePlain17()
    ensures Plain(EmbeddedTemplate(17))
  {
  }

  lemma TemplatePlain18()
    ensures Plain(EmbeddedTemplate(18))
  {
  }

  lemma TemplatePlain19()
    ensures Plain(EmbeddedTemplate(19))
  {
  }

  lemma TemplatePlain20()
    ensures Plain(EmbeddedTemplate(20))
  {
  }

  lemma TemplatePlain21()
    ensures Plain(EmbeddedTemplate(21))
  {
  }

  lemma TemplatePlain22()
    ensures Plain(EmbeddedTemplate(22))
  {
  }

  lemma TemplatePlain23()
    ensures Plain(EmbeddedTemplate(23))
  {
  }

  lemma TemplatePlain24()
    ensures Plain(EmbeddedTemplate(24))
  {
  }

  lemma TemplatePlain25()
    ensures Plain(EmbeddedTemplate(25))
  {
  }

  lemma TemplatePlain26()
    ensures Plain(EmbeddedTemplate(26))
  {
  }

  lemma TemplatePlain27()
    ensures Plain(EmbeddedTemplate(27))
  {
  }

  lemma TemplatePlain28()
    ensures Plain(EmbeddedTemplate(28))
  {
  }

  lemma TemplatePlain29()
    ensures Plain(EmbeddedTemplate(29))
  {
  }

  lemma TemplatePlain30()
    ensures Plain(EmbeddedTemplate(30))
  {
  }

  lemma TemplatePlain31()
    ensures Plain(EmbeddedTemplate(31))
  {
  }

  /** Every shipped template is plain. */
  lemma TemplatePlain(k: nat)
    requires k < 32
    ensures Plain(EmbeddedTemplate(k))
  {
    match k
    case 0 => TemplatePlain0();
    case 1 => TemplatePlain1();
    case 2 => TemplatePlain2();
    case 3 => TemplatePlain3();
    case 4 => TemplatePlain4();
    case 5 => TemplatePlain5();
    case 6 => TemplatePlain6();
    case 7 => TemplatePlain7();
    case 8 => TemplatePlain8();
    case 9 => TemplatePlain9();
    case 10 => TemplatePlain10();
    case 11 => TemplatePlain11();
    case 12 => TemplatePlain12();
    case 13 => TemplatePlain13();
    case 14 => TemplatePlain14();
    case 15 => TemplatePlain15();
    case 16 => TemplatePlain16();
    case 17 => TemplatePlain17();
    case 18 => TemplatePlain18();
    case 19 => TemplatePlain19();
    case 20 => TemplatePlain20();
    case 21 => TemplatePlain21();
    case 22 => TemplatePlain22();
    case 23 => TemplatePlain23();
    case 24 => TemplatePlain24();
    case 25 => TemplatePlain25();
    case 26 => TemplatePlain26();
    case 27 => TemplatePlain27();
    case 28 => TemplatePlain28();
    case 29 => TemplatePlain29();
    case 30 => TemplatePlain30();
    case 31 => TemplatePlain31();
  }
}

=== FILE: text.dfy ===
/** Character classes and string scanners shared by every part of the model:
    the regex classes `\w` and `\s`, ASCII lower-casing, `trim`, `startsWith`,
    `includes` and the single-occurrence `String.prototype.replace` with a
    string pattern. */
module Text {
  import opened Optional

  /** The regex class `\w`: `[A-Za-z0-9_]`. */
  predicate IsWordChar(c: char) {
    ('A' <= c <= 'Z') || ('a' <= c <= 'z') || ('0' <= c <= '9') || c == '_'
  }

  /** The ECMAScript LineTerminator set: the characters `.` does not match. */
  predicate IsLineTerminator(c: char) {
    c == '\n' || c == '\r' || c == '\U{2028}' || c == '\U{2029}'
  }

  predicate NotLineTerminator(c: char) {
    !IsLineTerminator(c)
  }

  /** The regex class `\s`, which is also the set `trim` removes:
      ECMAScript WhiteSpace (including every space separator) plus
      LineTerminator. */
  predicate IsSpace(c: char) {
    || IsLineTerminator(c)
    || c == '\t' || c == '\U{000B}' || c == '\U{000C}' || c == ' '
    || c == '\U{00A0}' || c == '\U{1680}' || ('\U{2000}' <= c <= '\U{200A}')
    || c == '\U{202F}' || c == '\U{205F}' || c == '\U{3000}' || c == '\U{FEFF}'
  }

  predicate IsWord(s: string) {
    forall i :: 0 <= i < |s| ==> IsWordChar(s[i])
  }

  predicate IsBlank(s: string) {
    forall i :: 0 <= i < |s| ==> IsSpace(s[i])
  }

  predicate SingleLine(s: string) {
    forall i :: 0 <= i < |s| ==> !IsLineTerminator(s[i])
  }

  /** `toLowerCase`, restricted to the ASCII letters. */
  function LowerChar(c: char): (r: char)
    ensures 'A' <= c <= 'Z' ==> 'a' <= r <= 'z'
    ensures !('A' <= c <= 'Z') ==> r == c
  {
    if 'A' <= c <= 'Z' then (c as int + 32) as char else c
  }

  function Lower(s: string): (r: string)
    ensures |r| == |s|
    ensures forall i :: 0 <= i < |s| ==> r[i] == LowerChar(s[i])
  {
    seq(|s|, i requires 0 <= i < |s| => LowerChar(s[i]))
  }

  /** Length of the longest prefix of `s` whose characters all satisfy `p`:
      what a greedy `p*` consumes at the start of `s`. */
  function Span(s: string, p: char -> bool): (n: nat)
    ensures n <= |s|
    ensures forall i :: 0 <= i < n ==> p(s[i])
    ensures n < |s| ==> !p(s[n])
  {
    if s == [] || !p(s[0]) then 0 else 1 + Span(s[1..], p)
  }

  /** Length of the longest suffix of `s` whose characters all satisfy `p`. */
  function SpanBack(s: string, p: char -> bool): (n: nat)
    ensures n <= |s|
    ensures forall i :: |s| - n <= i < |s| ==> p(s[i])
    ensures n < |s| ==> !p(s[|s| - n - 1])
  {
    if s == [] || !p(s[|s| - 1]) then 0 else 1 + SpanBack(s[..|s| - 1], p)
  }

  /** A greedy scan over `x + y` stops exactly at the end of `x` when every
      character of `x` satisfies `p` and `y` does not start with one that
      does. */
  lemma {:induction false} SpanOfPrefix(x: string, y: string, p: char -> bool)
    requires forall i :: 0 <= i < |x| ==> p(x[i])
    requires y != [] ==> !p(y[0])
    ensures Span(x + y, p) == |x|
  {
    if x != [] {
      assert (x + y)[1..] == x[1..] + y;
      SpanOfPrefix(x[1..], y, p);
    } else {
      assert x + y == y;
    }
  }

  /** `s.replace(/^\s+/, "")`. */
  function TrimStart(s: string): string {
    s[Span(s, IsSpace)..]
  }

  /** The leading white space `TrimStart` drops, as a cut of the text. */
  lemma LeadingBlank(r: string)
    ensures r == r[..Span(r, IsSpace)] + TrimStart(r)
    ensures IsBlank(r[..Span(r, IsSpace)])
  {
    var a := Span(r, IsSpace);
    assert r == r[..a] + r[a..];
    assert IsBlank(r[..a]) by {
      assert forall i :: 0 <= i < a ==> r[..a][i] == r[i];
    }
  }

  /** What `TrimStart` leaves does not start with white space. */
  lemma TrimStartHead(r: string)
    ensures TrimStart(r) != [] ==> !IsSpace(TrimStart(r)[0])
  {
    var a := Span(r, IsSpace);
    if a < |r| {
      assert TrimStart(r)[0] == r[a];
    }
  }

  function TrimEnd(s: string): string {
    s[..|s| - SpanBack(s, IsSpace)]
  }

  /** `String.prototype.trim`. */
  function Trim(s: string): string {
    TrimEnd(TrimStart(s))
  }

  /** `trim` removes a run of `\s` at each end and nothing else. */
  lemma TrimRemovesBlankEnds(s: string)
    ensures exists a, b :: 0 <= a <= b <= |s| && Trim(s) == s[a..b]
                         && IsBlank(s[..a]) && IsBlank(s[b..])
    ensures Trim(s) != [] ==> !IsSpace(Trim(s)[0]) && !IsSpace(Trim(s)[|Trim(s)| - 1])
  {
    var a := Span(s, IsSpace);
    var t := s[a..];
    var r := t[..|t| - SpanBack(t, IsSpace)];
    assert r == s[a..a + |r|];
  }

  /** `!s.trim()` holds exactly for the strings made only of `\s`. */
  lemma {:induction false} TrimEmptyIffBlank(s: string)
    ensures Trim(s) == [] <==> IsBlank(s)
  {
    var a := Span(s, IsSpace);
    var t := s[a..];
    if IsBlank(s) {
      assert a == |s|;
    } else {
      var k :| 0 <= k < |s| && !IsSpace(s[k]);
      assert a <= k;
      assert !IsSpace(t[k - a]);
      var e := SpanBack(t, IsSpace);
      assert k - a < |t| - e;
    }
  }

  predicate StartsWith(s: string, prefix: string) {
    |prefix| <= |s| && s[..|prefix|] == prefix
  }

  predicate OccursAt(s: string, t: string, i: nat) {
    i + |t| <= |s| && s[i..i + |t|] == t
  }

  /** `i` is the position `indexOf` reports: the first occurrence. */
  ghost predicate IsFirstOccurrence(s: string, t: string, i: nat) {
    OccursAt(s, t, i) && forall j: nat :: j < i ==> !OccursAt(s, t, j)
  }

  /** The first occurrence of `t` in `s` at or after position `k`. */
  function IndexFrom(s: string, t: string, k: nat): (r: Option<nat>)
    requires k <= |s|
    ensures r.Some? ==> k <= r.value && OccursAt(s, t, r.value)
    ensures r.Some? ==> forall j: nat :: k <= j < r.value ==> !OccursAt(s, t, j)
    ensures r.None? ==> forall j: nat :: k <= j ==> !OccursAt(s, t, j)
    decreases |s| - k
  {
    if k + |t| > |s| then None
    else if s[k..k + |t|] == t then Some(k)
    else IndexFrom(s, t, k + 1)
  }

  /** `String.prototype.indexOf`, with `None` for -1. */
  function IndexOf(s: string, t: string): (r: Option<nat>)
    ensures r.Some? ==> IsFirstOccurrence(s, t, r.value)
    ensures r.None? <==> forall j: nat :: !OccursAt(s, t, j)
  {
    IndexFrom(s, t, 0)
  }

  /** `String.prototype.includes`. */
  predicate Contains(s: string, t: string) {
    IndexOf(s, t).Some?
  }

  /** The empty string is contained in every string. */
  lemma ContainsEmpty(s: string)
    ensures Contains(s, [])
  {
    assert OccursAt(s, [], 0);
  }

  /** `t` occurs in `s` at exactly one position. */
  predicate OccursOnce(s: string, t: string) {
    match IndexOf(s, t)
    case None => false
    case Some(i) => i == |s| || IndexFrom(s, t, i + 1).None?
  }

  lemma OccursOnceMeansUnique(s: string, t: string)
    requires OccursOnce(s, t)
    ensures exists i: nat :: OccursAt(s, t, i)
    ensures forall i: nat, j: nat :: OccursAt(s, t, i) && OccursAt(s, t, j) ==> i == j
  {
  }

  /** `s.replace(t, rep)` with a string pattern and a replacement that
      holds no `$`: the first occurrence of `t` is replaced by `rep`,
      and `s` is returned unchanged when `t` does not occur. */
  function ReplaceFirst(s: string, t: string, rep: string): (r: string)
    ensures !Contains(s, t) ==> r == s
    ensures forall i: nat :: IsFirstOccurrence(s, t, i) ==> r == s[..i] + rep + s[i + |t|..]
  {
    match IndexOf(s, t)
    case None => s
    case Some(i) => s[..i] + rep + s[i + |t|..]
  }

  /** When the first character of `t` does not occur in `p`, the first
      occurrence of `t` in `p + t + suffix` is right after `p`, so that is
      where the replacement goes. */
  lemma ReplaceAfterPlainPrefix(p: string, t: string, suffix: string, rep: string)
    requires t != [] && t[0] !in p
    ensures ReplaceFirst(p + t + suffix, t, rep) == p + rep + suffix
  {
    var s := p + t + suffix;
    assert s[|p|..|p| + |t|] == t;
    forall j: nat | j < |p| ensures !OccursAt(s, t, j) {
      assert s[j] == p[j] && s[j] != t[0];
    }
    assert IsFirstOccurrence(s, t, |p|);
    assert s[..|p|] == p && s[|p| + |t|..] == suffix;
  }
}

=== FILE: uri.dfy ===
/** `encodeURIComponent`: every character outside the unreserved set of
    section 2.3 of RFC 2396 is written as the UTF-8 bytes of its code point,
    each as `%` and two upper-case hexadecimal digits (section 2.1 of
    RFC 3986). `Decode` is the matching `decodeURIComponent`; the two are
    proved inverse. A Dafny `char` is a Unicode scalar value, so the lone
    surrogates that make the JavaScript function throw cannot occur. */
module Uri {
  import opened Optional

  /** The characters `encodeURIComponent` leaves as they are. */
  predicate IsUnreserved(c: char) {
    || ('A' <= c <= 'Z') || ('a' <= c <= 'z') || ('0' <= c <= '9')
    || c == '-' || c == '_' || c == '.' || c == '!' || c == '~'
    || c == '*' || c == '\'' || c == '(' || c == ')'
  }

  predicate IsByte(b: int) {
    0 <= b < 256
  }

  function HexDigit(n: nat): (c: char)
    requires n < 16
    ensures ('0' <= c <= '9') || ('A' <= c <= 'F')
  {
    if n < 10 then ('0' as int + n) as char else ('A' as int + n - 10) as char
  }

  /** The value of a hexadecimal digit of either case. */
  function HexValue(c: char): (r: Option<nat>)
    ensures r.Some? ==> r.value < 16
  {
    if '0' <= c <= '9' then Some(c as int - '0' as int)
    else if 'A' <= c <= 'F' then Some(c as int - 'A' as int + 10)
    else if 'a' <= c <= 'f' then Some(c as int - 'a' as int + 10)
    else None
  }

  lemma HexValueOfDigit(n: nat)
    requires n < 16
    ensures HexValue(HexDigit(n)) == Some(n)
  {
  }

  /** The UTF-8 encoding of one code point (section 3 of RFC 3629). */
  function Utf8(c: char): (r: seq<int>)
    ensures 1 <= |r| <= 4
    ensures forall i :: 0 <= i < |r| ==> IsByte(r[i])
  {
    var cp := c as int;
    var q1 := cp / 64;
    var q2 := q1 / 64;
    if cp < 0x80 then [cp]
    else if cp < 0x800 then [0xC0 + q1, 0x80 + cp % 64]
    else if cp < 0x1_0000 then [0xE0 + q2, 0x80 + q1 % 64, 0x80 + cp % 64]
    else [0xF0 + q2 / 64, 0x80 + q2 % 64, 0x80 + q1 % 64, 0x80 + cp % 64]
  }

  /** `%HH` for one byte. */
  function PercentByte(b: int): (r: string)
    requires IsByte(b)
    ensures |r| == 3 && r[0] == '%'
  {
    ['%', HexDigit(b / 16), HexDigit(b % 16)]
  }

  function PercentBytes(bs: seq<int>): (r: string)
    requires forall i :: 0 <= i < |bs| ==> IsByte(bs[i])
    ensures |r| == 3 * |bs|
  {
    if bs == [] then [] else PercentByte(bs[0]) + PercentBytes(bs[1..])
  }

  function EncodeChar(c: char): string {
    if IsUnreserved(c) then [c] else PercentBytes(Utf8(c))
  }

  /** `encodeURIComponent(s)`. Its output is made only of unreserved
      characters and `%` (the hexadecimal digits are unreserved), so it never
      holds `$` and a replacement string built from it is taken literally. */
  function Encode(s: string): (r: string)
    ensures |s| <= |r|
    ensures forall i :: 0 <= i < |r| ==> IsUnreserved(r[i]) || r[i] == '%'
    ensures (forall i :: 0 <= i < |s| ==> IsUnreserved(s[i])) ==> r == s
  {
    if s == [] then []
    else
      var head := EncodeChar(s[0]);
      assert forall i :: 0 <= i < |head| ==> IsUnreserved(head[i]) || head[i] == '%' by {
        if !IsUnreserved(s[0]) { PercentBytesAlphabet(Utf8(s[0])); }
      }
      head + Encode(s[1..])
  }

  lemma {:induction false} PercentBytesAlphabet(bs: seq<int>)
    requires forall i :: 0 <= i < |bs| ==> IsByte(bs[i])
    ensures forall i :: 0 <= i < |PercentBytes(bs)| ==>
              IsUnreserved(PercentBytes(bs)[i]) || PercentBytes(bs)[i] == '%'
  {
    if bs != [] {
      PercentBytesAlphabet(bs[1..]);
    }
  }

  // ---------------------------------------------------------------------
  // decodeURIComponent

  /** The byte written as `%HH` at position `i` of `t`, if there is one. */
  function ByteAt(t: string, i: nat): (r: Option<int>)
    ensures r.Some? ==> IsByte(r.value) && i + 3 <= |t|
  {
    if i + 3 <= |t| && t[i] == '%' && HexValue(t[i + 1]).Some? && HexValue(t[i + 2]).Some?
    then Some(16 * HexValue(t[i + 1]).value + HexValue(t[i + 2]).value)
    else None
  }

  /** Number of bytes in the UTF-8 sequence a lead byte announces; 0 when
      `b` cannot start a sequence. */
  function Utf8Width(b: int): nat {
    if 0 <= b < 0x80 then 1
    else if 0xC0 <= b < 0xE0 then 2
    else if 0xE0 <= b < 0xF0 then 3
    else if 0xF0 <= b < 0xF8 then 4
    else 0
  }

  function LeadValue(b: int, width: nat): int {
    if width == 1 then b
    else if width == 2 then b - 0xC0
    else if width == 3 then b - 0xE0
    else b - 0xF0
  }

  /** The smallest code point a sequence of `width` bytes may carry;
      anything smaller is an overlong form. */
  function MinCodePoint(width: nat): int {
    if width <= 1 then 0 else if width == 2 then 0x80 else if width == 3 then 0x800 else 0x1_0000
  }

  /** Reads `count` continuation bytes `%80`..`%BF` from position `i`,
      accumulating six bits from each into `acc`. */
  function Continue(t: string, i: nat, count: nat, acc: int): (r: Option<int>)
    decreases count
  {
    if count == 0 then Some(acc)
    else match ByteAt(t, i)
      case None => None
      case Some(b) =>
        if 0x80 <= b < 0xC0 then Continue(t, i + 3, count - 1, acc * 64 + (b - 0x80)) else None
  }

  /** The character encoded by the UTF-8 sequence that starts at the front
      of `t`, and how many characters of `t` it spans. */
  function DecodeSequence(t: string): (r: Option<(char, nat)>)
    ensures r.Some? ==> 3 <= r.value.1 <= |t|
  {
    match ByteAt(t, 0)
    case None => None
    case Some(b0) =>
      var width := Utf8Width(b0);
      if width == 0 || |t| < 3 * width then None
      else match Continue(t, 3, width - 1, LeadValue(b0, width))
        case None => None
        case Some(cp) =>
          if MinCodePoint(width) <= cp < 0xD800 || (0xE000 <= cp < 0x11_0000 && MinCodePoint(width) <= cp)
          then Some((cp as char, 3 * width))
          else None
  }

  function Prepend(c: char, r: Option<string>): Option<string> {
    match r
    case None => None
    case Some(s) => Some([c] + s)
  }

  /** `decodeURIComponent(t)`, with `None` for the `URIError` cases. */
  function Decode(t: string): Option<string>
    decreases |t|
  {
    if t == [] then Some([])
    else if t[0] != '%' then Prepend(t[0], Decode(t[1..]))
    else match DecodeSequence(t)
      case None => None
      case Some((c, n)) => Prepend(c, Decode(t[n..]))
  }

  lemma PercentByteRead(b: int, rest: string)
    requires IsByte(b)
    ensures ByteAt(PercentByte(b) + rest, 0) == Some(b)
  {
    var t := PercentByte(b) + rest;
    HexValueOfDigit(b / 16);
    HexValueOfDigit(b % 16);
    assert t[1] == HexDigit(b / 16) && t[2] == HexDigit(b % 16);
  }

  /** One step of continuation reading. */
  lemma ContinueStep(t: string, i: nat, count: nat, acc: int, b: int)
    requires count > 0 && ByteAt(t, i) == Some(b) && 0x80 <= b < 0xC0
    ensures Continue(t, i, count, acc) == Continue(t, i + 3, count - 1, acc * 64 + (b - 0x80))
  {
  }

  /** Reading the bytes of a `%HH` run back gives the bytes that were written. */
  lemma {:induction false} ContinueReads(bs: seq<int>, rest: string, acc: int)
    requires forall i :: 0 <= i < |bs| ==> 0x80 <= bs[i] < 0xC0
    ensures Continue(PercentBytes(bs) + rest, 0, |bs|, acc) == Some(Accumulate(bs, acc))
  {
    if bs != [] {
      var next := acc * 64 + (bs[0] - 0x80);
      LeadByteRead(bs, rest);
      ContinueStep(PercentBytes(bs) + rest, 0, |bs|, acc, bs[0]);
      ContinueTail(bs, rest, |bs| - 1, next);
      ContinueReads(bs[1..], rest, next);
    }
  }

  /** Reading continuation bytes after the first `%HH` of a run is reading
      the rest of the run. */
  lemma ContinueTail(bs: seq<int>, rest: string, count: nat, acc: int)
    requires 1 <= |bs| && forall i :: 0 <= i < |bs| ==> IsByte(bs[i])
    ensures Continue(PercentBytes(bs) + rest, 3, count, acc) == Continue(PercentBytes(bs[1..]) + rest, 0, count, acc)
  {
    var tail := PercentBytes(bs[1..]) + rest;
    assert PercentBytes(bs) + rest == PercentByte(bs[0]) + tail;
    ContinueShiftAt(PercentByte(bs[0]), tail, 0, count, acc);
  }

  /** Continuation reading only looks at the text from its position on. */
  lemma {:induction false} ContinueShiftAt(pre: string, t: string, i: nat, count: nat, acc: int)
    requires |pre| == 3
    ensures Continue(pre + t, 3 + i, count, acc) == Continue(t, i, count, acc)
    decreases count
  {
    if count > 0 {
      assert forall j :: 0 <= j < |t| ==> (pre + t)[3 + j] == t[j];
      assert ByteAt(pre + t, 3 + i) == ByteAt(t, i);
      match ByteAt(t, i)
      case None =>
      case Some(b) =>
        if 0x80 <= b < 0xC0 {
          ContinueShiftAt(pre, t, i + 3, count - 1, acc * 64 + (b - 0x80));
        }
    }
  }

  function Accumulate(bs: seq<int>, acc: int): int {
    if bs == [] then acc else Accumulate(bs[1..], acc * 64 + (bs[0] - 0x80))
  }

  /** The continuation bytes of a `%HH` run, read after its lead byte,
      accumulate onto the lead byte's value. */
  lemma ContinueAfterLead(bs: seq<int>, rest: string, acc: int)
    requires 1 <= |bs| && forall i :: 0 <= i < |bs| ==> IsByte(bs[i])
    requires forall i :: 1 <= i < |bs| ==> 0x80 <= bs[i] < 0xC0
    ensures Continue(PercentBytes(bs) + rest, 3, |bs| - 1, acc) == Some(Accumulate(bs[1..], acc))
  {
    ContinueTail(bs, rest, |bs| - 1, acc);
    ContinueReads(bs[1..], rest, acc);
  }

  /** `DecodeSequence` accepts a lead byte, its continuation bytes and the
      code point they make when that code point is neither overlong nor a
      surrogate. */
  lemma DecodeSequenceAccepts(t: string, b0: int, c: char)
    requires ByteAt(t, 0) == Some(b0)
    requires Utf8Width(b0) != 0 && |t| >= 3 * Utf8Width(b0)
    requires Continue(t, 3, Utf8Width(b0) - 1, LeadValue(b0, Utf8Width(b0))) == Some(c as int)
    requires MinCodePoint(Utf8Width(b0)) <= c as int
    ensures DecodeSequence(t) == Some((c, 3 * Utf8Width(b0)))
  {
    var cp := c as int;
    assert cp < 0xD800 || 0xE000 <= cp < 0x11_0000;
    assert cp as char == c;
  }

  /** A well-formed `%HH` run of UTF-8 bytes decodes to the code point it
      carries and is consumed whole. */
  lemma DecodeSequenceOfBytes(bs: seq<int>, rest: string, c: char)
    requires 1 <= |bs| && forall i :: 0 <= i < |bs| ==> IsByte(bs[i])
    requires Utf8Width(bs[0]) == |bs|
    requires forall i :: 1 <= i < |bs| ==> 0x80 <= bs[i] < 0xC0
    requires Accumulate(bs[1..], LeadValue(bs[0], |bs|)) == c as int
    requires MinCodePoint(|bs|) <= c as int
    ensures DecodeSequence(PercentBytes(bs) + rest) == Some((c, 3 * |bs|))
  {
    LeadByteRead(bs, rest);
    ContinueAfterLead(bs, rest, LeadValue(bs[0], |bs|));
    DecodeSequenceAccepts(PercentBytes(bs) + rest, bs[0], c);
  }

  /** The first `%HH` of a run reads back as the run's first byte. */
  lemma LeadByteRead(bs: seq<int>, rest: string)
    requires 1 <= |bs| && forall i :: 0 <= i < |bs| ==> IsByte(bs[i])
    ensures ByteAt(PercentBytes(bs) + rest, 0) == Some(bs[0])
  {
    assert PercentBytes(bs) + rest == PercentByte(bs[0]) + (PercentBytes(bs[1..]) + rest);
    PercentByteRead(bs[0], PercentBytes(bs[1..]) + rest);
  }

  /** Decoding the `%HH` form of one character's UTF-8 bytes gives the
      character back and consumes exactly that form. */
  lemma DecodeSequenceOfChar(c: char, rest: string)
    requires !IsUnreserved(c)
    ensures DecodeSequence(PercentBytes(Utf8(c)) + rest) == Some((c, 3 * |Utf8(c)|))
  {
    Utf8Value(c);
    DecodeSequenceOfBytes(Utf8(c), rest, c);
  }

  /** The lead byte and continuation bytes of `Utf8(c)` add back up to `c`. */
  lemma Utf8Value(c: char)
    ensures var bs := Utf8(c);
      && Utf8Width(bs[0]) == |bs|
      && (forall i :: 1 <= i < |bs| ==> 0x80 <= bs[i] < 0xC0)
      && Accumulate(bs[1..], LeadValue(bs[0], |bs|)) == c as int
      && MinCodePoint(|bs|) <= c as int
  {
    var cp := c as int;
    var q1 := cp / 64;
    var q2 := q1 / 64;
    var bs := Utf8(c);
    if cp < 0x80 {
    } else if cp < 0x800 {
      assert Accumulate(bs[1..], LeadValue(bs[0], 2)) == q1 * 64 + cp % 64;
    } else if cp < 0x1_0000 {
      var a0 := LeadValue(bs[0], 3);
      var a1 := a0 * 64 + (bs[1] - 0x80);
      assert bs[1..][1..] == [bs[2]];
      assert Accumulate([bs[2]], a1) == a1 * 64 + (bs[2] - 0x80);
      assert Accumulate(bs[1..], a0) == Accumulate([bs[2]], a1);
      assert a1 == q1;
    } else {
      var a0 := LeadValue(bs[0], 4);
      var a1 := a0 * 64 + (bs[1] - 0x80);
      var a2 := a1 * 64 + (bs[2] - 0x80);
      assert bs[1..][1..] == [bs[2], bs[3]];
      assert [bs[2], bs[3]][1..] == [bs[3]];
      assert Accumulate([bs[3]], a2) == a2 * 64 + (bs[3] - 0x80);
      assert Accumulate([bs[2], bs[3]], a1) == Accumulate([bs[3]], a2);
      assert Accumulate(bs[1..], a0) == Accumulate([bs[2], bs[3]], a1);
      assert a1 == q2;
      assert a2 == q1;
    }
  }

  /** Decoding undoes encoding one character at a time. */
  lemma DecodeEncodedChar(c: char, rest: string)
    ensures Decode(EncodeChar(c) + rest) == Prepend(c, Decode(rest))
  {
    var t := EncodeChar(c) + rest;
    if IsUnreserved(c) {
      assert t[0] == c && t[1..] == rest;
    } else {
      DecodeSequenceOfChar(c, rest);
      assert t[0] == '%';
      assert t[3 * |Utf8(c)|..] == rest;
    }
  }

  /** `decodeURIComponent(encodeURIComponent(s)) == s` for every string. */
  lemma {:induction false} DecodeEncode(s: string)
    ensures Decode(Encode(s)) == Some(s)
  {
    if s != [] {
      DecodeEncode(s[1..]);
      DecodeEncodedChar(s[0], Encode(s[1..]));
      assert [s[0]] + s[1..] == s;
    }
  }
}
